=== FILE: README.md ===
# play-time roster engine in Dafny

This project models the roster and lineup engine of the play-time app, a
youth-sports lineup manager. It covers:

- the sport catalog (soccer and field hockey, their positions, and the
  formations offered per team size);
- the `Formation`, `Sport`, `Position`, `Player` and `Team` entities;
- the stand-alone display-name formatter;
- the team store, which keeps the current team, sport, team size and
  formation, and changes the roster on the user's behalf.

Everything is immutable data and pure functions, plus four methods: three
with loops (`Sports.GetAvailableTeamSizes`, `Teams.MeetsFormationRequirements`,
`Teams.GetFormationStatus`) and the store's `GetFormationStatus`, which calls
the team's. A JavaScript `null` or `undefined` is `Option.None`. An exception is
`Result.Failure`. Strings are `seq<char>`.

Modules, one per source concept:

| module | file | models |
|---|---|---|
| `Wrappers`, `Seqs`, `Numerals` | `wrappers.dfy`, `seqs.dfy`, `numerals.dfy` | helpers: option/result, filtering and lookup on sequences, decimal text of integers |
| `Formations` | `formations.dfy` | `src/lib/models/Formation.js` |
| `Sports` | `sports.dfy` | `src/lib/models/Sport.js` |
| `Catalog` | `catalog.dfy` | `src/lib/config/sports.js` |
| `Players` | `players.dfy` | `src/lib/models/Player.js` as written |
| `DisplayName` | `display_name.dfy` | `src/lib/utils/displayName.js` |
| `Teams` | `teams.dfy` | `src/lib/models/Team.js` |
| `TeamStore` | `team_store.dfy` | `src/lib/stores/teamStore.svelte.js` as written |
| `LineupPlayers`, `LineupEngine` | `lineup_players.dfy`, `lineup_engine.dfy` | the slot and pending-lineup behaviour the store calls and the player tests state |

## Where the code and its tests disagree

The player class has seven fields. It has no slot index (`positionIndex`),
no pending position, and no pending-position methods. Its `assignToPosition`
ignores a slot argument, and its `toJSON()` writes seven keys.

The store nevertheless passes slots and calls `assignToPendingPosition`,
`clearPendingPosition` and `applyPendingPosition`. The player tests expect
ten serialized keys and those three methods
(`src/lib/models/__tests__/Player.test.js`, lines 75-128).

The model follows the code:

- `Players` and `TeamStore` model the classes as written.
- In `TeamStore`, every slot argument is dropped.
- The four pending-lineup store functions return
  `Failure(TypeError(...))` as soon as they reach a player, because the
  method they call does not exist.
- What those functions are evidently meant to do is modelled separately, in
  `LineupPlayers` and `LineupEngine`. They wrap the base player with the
  three extra fields and give the methods the meaning the tests state.

## Model

| member | source | states |
|---|---|---|
| Formations.TotalPlayers | src/lib/models/Formation.js:16-18 | an empty formation totals 0, and one with no negative count totals at least 0 |
| Formations.GetPositionCount | src/lib/models/Formation.js:25-27 | an absent name counts 0; with distinct keys a present name gives exactly its stored count |
| Formations.HasPosition | src/lib/models/Formation.js:34-36 | an absent name is never present; with distinct keys, true exactly when the name is stored with a positive count |
| Formations.GetPositionNames | src/lib/models/Formation.js:42-44 | the keys, one per entry, in insertion order |
| Formations.IsValidForTeamSize | src/lib/models/Formation.js:51-53 | an empty formation fits only size 0; with distinct keys, valid exactly when the per-name counts over the names add up to the size |
| Formations.TotalIsSumOfPositionCounts | src/lib/models/Formation.js:16-44 | with distinct keys, the total equals the sum of the per-name counts over the names: the three queries agree |
| Sports.GetAvailableTeamSizes | src/lib/models/Sport.js:20-25 | the sizes min, min+1, ..., max, in order; empty when the range is inverted; a size is listed exactly when it is valid |
| Sports.IsValidTeamSize | src/lib/models/Sport.js:51-53 | valid exactly when the size sits at an index of the `max - min + 1` available sizes; no size is valid for an inverted range |
| Sports.SizeKey | src/lib/models/Sport.js:33 | the key is the size's decimal text, a `v`, and the same text again; that text reads back as the size |
| Sports.SizeKeyInjective | src/lib/models/Sport.js:32-35 | two team sizes never share a `NvN` key, so each size selects at most one formation list |
| Sports.GetFormationsForTeamSize | src/lib/models/Sport.js:32-35 | a missing key gives `[]`; otherwise the list stored under the first matching key |
| Sports.GetPosition | src/lib/models/Sport.js:42-44 | `None` exactly when no position has the name; otherwise the first position with that name |
| Numerals.IntRoundTrip | src/lib/models/Sport.js:32-35 | the decimal text used to build the key parses back to the same integer |
| Catalog.GetSportById | src/lib/config/sports.js:80-92 | `soccer` gives the soccer sport, `field_hockey` the field-hockey sport, and every other id nothing |
| Catalog.GetAllSports | src/lib/config/sports.js:98-100 | two sports, soccer first and field hockey second; each is found by its own id, and every sport found by id is listed |
| Catalog.SoccerFormationSizes | src/lib/config/sports.js:14-40 | soccer allows sizes 7 to 11, but only sizes 7, 9 and 11 have formations |
| Catalog.FieldHockeyFormationSizes | src/lib/config/sports.js:52-75 | field hockey allows sizes 6 to 11, but only sizes 6, 7 and 11 have formations |
| Catalog.SoccerFormationsFitTheirSize | src/lib/config/sports.js:14-31 | every soccer formation totals the size it is offered under |
| Catalog.FieldHockeyFormationsFitTheirSize | src/lib/config/sports.js:52-66 | every field-hockey formation fits its size, except `3-3-3` under `11v11` |
| Catalog.FieldHockeyDefaultElevenIsShort | src/lib/config/sports.js:61-65 | the first 11-a-side field-hockey formation, which a new team starts with, totals 10 |
| Catalog.FormationKeysArePositions | src/lib/config/sports.js:7-66 | every formation key in the catalog names a position of its sport, and no formation repeats a key |
| Catalog.SoccerDefaultCountIsNotACapacity | src/lib/config/sports.js:7-12 | the soccer 3-5-2 asks for 5 midfielders while the default count is 3, so the default is no capacity |
| Catalog.FieldHockeyDefaultCountIsNotACapacity | src/lib/config/sports.js:45-50 | the field-hockey 4-3-3 asks for 4 defenders while the default count is 3 |
| Players.NewPlayer | src/lib/models/Player.js:7-23 | given fields are kept; omitted ones default to nickname `''`, jersey number `''`, status `on_bench`, position `null` |
| Players.DefaultPlayerIsBenched | src/lib/models/Player.js:7-23 | a player built from identity fields alone is on the bench and not on the field |
| Players.IsOnField | src/lib/models/Player.js:44-46 | a field player never has the bench status, and no player without a position is on the field |
| Players.IsOnBench | src/lib/models/Player.js:52-54 | a bench player is never on the field, and the bench status alone decides, even with a leftover position |
| Players.GetDisplayName | src/lib/models/Player.js:30-38 | nickname when asked for and non-empty; `Last, F.` for `last` (`Last, undefined.` for an empty first name); otherwise `First Last` |
| Players.FieldAndBenchExclusive | src/lib/models/Player.js:44-54 | no player is both on the field and on the bench |
| Players.FieldAndBenchNotExhaustive | src/lib/models/Player.js:44-54 | some player is neither: status `on_field` with no position |
| Players.AssignToPosition | src/lib/models/Player.js:60-63 | sets the position and the field status, changes nothing else; on the field exactly when a position is given; never on the bench |
| Players.MoveToBench | src/lib/models/Player.js:68-71 | clears the position and sets the bench status, changes nothing else; on the bench and off the field |
| Players.MoveToBenchIdempotent | src/lib/models/Player.js:68-71 | benching twice is benching once |
| Players.BenchThenAssign | src/lib/models/Player.js:60-71 | benching before an assignment does not change the assignment's result |
| Players.ToJson | src/lib/models/Player.js:77-87 | the serialized record carries the seven fields unchanged |
| Players.FromJson | src/lib/models/Player.js:94-96 | the rebuilt player serializes back to exactly the record it was built from: every key is present, so no constructor default applies |
| Players.JsonRoundTrip | src/lib/models/Player.js:77-96 | deserializing a serialized player gives back the same player |
| Players.JsonRoundTripRecord | src/lib/models/Player.js:77-96 | serializing a deserialized record gives back the same record |
| Players.Merge | src/lib/models/Team.js:62-71 | each key present in the update overrides that field; every other field keeps its value |
| Players.MergeNothing | src/lib/models/Team.js:62-71 | an empty update changes nothing |
| DisplayName.GetDisplayName | src/lib/utils/displayName.js:7-19 | `''` for no player; otherwise nickname, `Last, F.` (`Last, undefined.` for an empty first name) or `First Last` as the format asks |
| DisplayName.AgreesWithPlayer | src/lib/utils/displayName.js:7-19 | the formatter and the player's own method agree on every player and format |
| DisplayName.NicknameFallback | src/lib/utils/displayName.js:10-18 | a nickname request without a nickname gives the full name |
| Teams.NewTeam | src/lib/models/Team.js:9-20 | a new team keeps the given id, name, sport id, size, roster and formation, and carries no extra property |
| Teams.FindIndex | src/lib/models/Team.js:38-54 | the index of the first player with the id, or `None` exactly when no player has it |
| Teams.AddPlayer | src/lib/models/Team.js:29-31 | appends the player at the end and keeps the rest of the team |
| Teams.AddPlayerLookup | src/lib/models/Team.js:29-54 | a player added under a fresh id is found by it and ids stay unique; a duplicate stays hidden behind the earlier player |
| Teams.RemovePlayer | src/lib/models/Team.js:38-45 | reports true exactly when the id is present; then deletes the first player with it, else changes nothing |
| Teams.RemovePlayerLookup | src/lib/models/Team.js:38-54 | with unique ids, a removed id is no longer found, ids stay unique, and every other id finds the same player |
| Teams.GetPlayer | src/lib/models/Team.js:52-54 | the first player with the id; `None` exactly when there is none |
| Teams.UpdatePlayer | src/lib/models/Team.js:62-71 | reports true exactly when the id is found; replaces that player by the merge and leaves all others |
| Teams.UpdatePlayerLookup | src/lib/models/Team.js:62-71 | an update that keeps the id keeps ids unique, and the id then finds the merged player |
| Teams.GetFieldPlayers | src/lib/models/Team.js:77-79 | a subsequence of the roster made of field players, as many as the roster holds: exactly the field players, repeats included, in roster order |
| Teams.GetBenchPlayers | src/lib/models/Team.js:85-87 | a subsequence of the roster made of bench players, as many as the roster holds: exactly the bench players, repeats included, in roster order |
| Teams.FieldAndBenchDisjoint | src/lib/models/Team.js:77-87 | the field and bench lists share no player and together hold at most the roster |
| Teams.GetPlayersByPosition | src/lib/models/Team.js:94-96 | a subsequence of the roster made of the players at the name, as many as the roster holds, whatever their status |
| Teams.PositionFilterIgnoresStatus | src/lib/models/Team.js:77-96 | every player at a position is counted there whatever the status, so a benched player still holding a position is counted there but is not in the field list |
| Teams.MeetsFormationRequirements | src/lib/models/Team.js:103-113 | true exactly when a formation is given and every position has exactly the required count |
| Teams.GetFormationStatus | src/lib/models/Team.js:120-134 | one entry per position in key order, with current count and requirement; full exactly when the count reaches it, and space exactly when it does not |
| Teams.SatisfiedFormationFieldsTotal | src/lib/models/Team.js:103-113 | a team that meets a formation has exactly the formation's total number of players standing at its positions |
| Teams.ToJson | src/lib/models/Team.js:140-149 | the six declared fields, each player serialized in order |
| Teams.FromJson | src/lib/models/Team.js:156-158 | a rebuilt team carries no extra property |
| Teams.Refresh | src/lib/stores/teamStore.svelte.js:98 | the store's `Team.fromJSON(team.toJSON())` gives back the same team without its ad-hoc description |
| Teams.RefreshKeepsDeclaredFields | src/lib/models/Team.js:140-158 | `fromJSON(toJSON())` keeps every declared field and every player, and drops an ad-hoc property such as a description |
| Teams.JsonRoundTripRecord | src/lib/models/Team.js:140-158 | serializing a deserialized team record gives back the same record |
| TeamStore.Commit | src/lib/stores/teamStore.svelte.js:97-98 | the store's refresh replaces only the team, by the same team without the description |
| TeamStore.FirstFormation | src/lib/stores/teamStore.svelte.js:73-79 | the size's first formation, or none exactly when the size has no formation |
| TeamStore.RestoreTeam | src/lib/stores/teamStore.svelte.js:18-28 | without saved data, nothing changes and false; with it, the rebuilt team and its sport, size and formation, and true |
| TeamStore.InitializeTeam | src/lib/stores/teamStore.svelte.js:33-46 | a new empty team under a fresh id with the sport, size and the size's first formation |
| TeamStore.SetSport | src/lib/stores/teamStore.svelte.js:51-68 | the sport at its largest size with that size's first formation; a team is created only when there is none, and an existing team is left as it is |
| TeamStore.SetTeamSize | src/lib/stores/teamStore.svelte.js:73-79 | sets the size; moves the store's formation only when a sport is set; never touches the team or its active formation |
| TeamStore.SetFormation | src/lib/stores/teamStore.svelte.js:84-89 | sets the store's formation and, when there is a team, its active formation |
| TeamStore.SetTeamName | src/lib/stores/teamStore.svelte.js:94-100 | no team: no change; otherwise only the name changes, and the refresh drops any description |
| TeamStore.SetTeamDescription | src/lib/stores/teamStore.svelte.js:105-111 | the description is set and dropped by the refresh, so the result does not depend on it |
| TeamStore.SetTeamDescriptionHasNoEffect | src/lib/stores/teamStore.svelte.js:105-111 | on every state the store builds, setting a description changes nothing |
| TeamStore.AddPlayer | src/lib/stores/teamStore.svelte.js:116-127 | no team: no change; otherwise the new player, under the fresh id whatever the data says, is appended; the sport, team size and formation are unchanged |
| TeamStore.AddPlayerKeepsIdsUnique | src/lib/stores/teamStore.svelte.js:116-127 | adding under an id not yet in the roster keeps ids unique |
| TeamStore.UpdatePlayer | src/lib/stores/teamStore.svelte.js:132-137 | no team: no change; otherwise the team's update followed by a refresh, found or not |
| TeamStore.UpdatePlayerKeepsIdsUnique | src/lib/stores/teamStore.svelte.js:132-137 | an update that keeps the id or brings an id no player has keeps ids unique |
| TeamStore.UpdateToExistingIdBreaksUniqueness | src/lib/models/Team.js:62-71 | an update carrying another player's id is applied unchecked and leaves two players with one id |
| TeamStore.DeletePlayer | src/lib/stores/teamStore.svelte.js:142-147 | no team: no change; otherwise the team's removal followed by a refresh, found or not |
| TeamStore.DeletePlayerRemovesId | src/lib/stores/teamStore.svelte.js:142-147 | with unique ids, a deleted id no longer resolves and ids stay unique |
| TeamStore.AssignPlayerToPosition | src/lib/stores/teamStore.svelte.js:152-161 | no team or unknown id: no change at all; otherwise that player alone is assigned, and the slot is ignored |
| TeamStore.AssignPlayerToPositionKeepsIdsUnique | src/lib/stores/teamStore.svelte.js:152-161 | an assignment keeps ids unique |
| TeamStore.MovePlayerToBench | src/lib/stores/teamStore.svelte.js:166-175 | no team or unknown id: no change at all; otherwise that player alone is benched |
| TeamStore.MovePlayerToBenchKeepsIdsUnique | src/lib/stores/teamStore.svelte.js:166-175 | benching keeps ids unique |
| TeamStore.SubstituteRoster | src/lib/stores/teamStore.svelte.js:186-190 | the outgoing player is benched and the incoming one takes the position read before; ids and other players unchanged; one player in both roles is reassigned to their own position |
| TeamStore.SubstitutePlayers | src/lib/stores/teamStore.svelte.js:180-194 | nothing happens unless both ids resolve; otherwise the substitution roster, refreshed |
| TeamStore.SubstituteKeepsIdsUnique | src/lib/stores/teamStore.svelte.js:180-194 | a substitution keeps ids unique |
| TeamStore.SubstituteMovesThePosition | src/lib/stores/teamStore.svelte.js:180-194 | substituting a field player benches them and puts the other player on the field at their position |
| TeamStore.SubstituteFromNoPosition | src/lib/stores/teamStore.svelte.js:180-194 | statuses are not checked: from a player with no position, the incoming player ends neither on the field nor on the bench |
| TeamStore.SwapRoster | src/lib/stores/teamStore.svelte.js:205-211 | the two field players exchange positions, stay on the field, and nothing else changes |
| TeamStore.SwapFieldPlayers | src/lib/stores/teamStore.svelte.js:199-216 | nothing happens unless both ids resolve to field players; otherwise the swap roster, refreshed |
| TeamStore.SwapKeepsIdsUnique | src/lib/stores/teamStore.svelte.js:199-216 | a swap keeps ids unique |
| TeamStore.SwapTwiceRestores | src/lib/stores/teamStore.svelte.js:199-216 | swapping the same two players twice gives back the state |
| TeamStore.GetPlayers | src/lib/stores/teamStore.svelte.js:249-251 | the roster, or `[]` without a team |
| TeamStore.GetFieldPlayers | src/lib/stores/teamStore.svelte.js:256-258 | `[]` without a team; otherwise the team's field list: a subsequence of the roster holding every field player, repeats included |
| TeamStore.GetBenchPlayers | src/lib/stores/teamStore.svelte.js:263-265 | `[]` without a team; otherwise the team's bench list: a subsequence of the roster holding every bench player, repeats included |
| TeamStore.GetFormationStatus | src/lib/stores/teamStore.svelte.js:270-272 | `{}` without a team or formation; otherwise one entry per position of the store's formation, with current count and requirement, full exactly when the count reaches it and space exactly when it does not |
| TeamStore.AssignPlayerToPendingPosition | src/lib/stores/teamStore.svelte.js:277-286 | succeeds, changing nothing, exactly when there is no team or the id is unknown; otherwise throws the missing-method error |
| TeamStore.ApplyPendingPositions | src/lib/stores/teamStore.svelte.js:291-299 | succeeds exactly when there is no team or the roster is empty, with only a refresh; otherwise throws the missing-method error of the first player |
| TeamStore.ClearPendingPositions | src/lib/stores/teamStore.svelte.js:304-312 | succeeds exactly when there is no team or the roster is empty, with only a refresh; otherwise throws the missing-method error of the first player |
| TeamStore.InitializePendingFromActive | src/lib/stores/teamStore.svelte.js:317-329 | succeeds exactly when there is no team or the roster is empty; otherwise throws on the first player's staging or clearing call |
| LineupPlayers.FromBase | src/lib/models/Player.js:7-23 | a base player with no slot and nothing staged |
| LineupPlayers.IsOnField | src/lib/models/Player.js:44-46 | on the field exactly when the base status is `on_field` and the base position is set; a field player is not on the bench |
| LineupPlayers.IsOnBench | src/lib/models/Player.js:52-54 | on the bench exactly when the base status is `on_bench`; a bench player is not on the field |
| LineupPlayers.AssignToPosition | src/lib/stores/teamStore.svelte.js:152-161 | the base assignment plus the slot; nothing staged changes |
| LineupPlayers.MoveToBench | src/lib/models/Player.js:68-71 | the base benching plus clearing the slot; nothing staged changes |
| LineupPlayers.BenchThenAssign | src/lib/models/Player.js:60-71 | benching before an assignment does not change its result, slot included |
| LineupPlayers.AssignToPendingPosition | src/lib/models/__tests__/Player.test.js:95-101 | stages a position and slot without touching status, position or slot |
| LineupPlayers.ClearPendingPosition | src/lib/models/__tests__/Player.test.js:103-109 | drops the staged pair and touches nothing else |
| LineupPlayers.ApplyPendingPosition | src/lib/models/__tests__/Player.test.js:111-128 | with something staged, takes it and its slot onto the field and clears it; otherwise benches |
| LineupPlayers.StageThenApply | src/lib/models/__tests__/Player.test.js:111-119 | staging then applying equals assigning directly, with nothing left staged |
| LineupPlayers.ClearThenApply | src/lib/models/__tests__/Player.test.js:121-128 | clearing then applying benches the player |
| LineupPlayers.ToJson | src/lib/models/__tests__/Player.test.js:75-85 | ten keys: the seven base fields plus the slot and the staged pair |
| LineupPlayers.FromJson | src/lib/models/__tests__/Player.test.js:87-93 | the rebuilt player serializes back to exactly the ten-key record it was built from |
| LineupPlayers.JsonRoundTrip | src/lib/models/__tests__/Player.test.js:75-93 | with ten keys, deserializing a serialized player keeps every field |
| LineupPlayers.BaseRoundTripForgetsStaging | src/lib/models/Player.js:77-96 | through the seven-key serialization, staging has no lasting effect and the slot is lost |
| LineupEngine.AssignPlayerToPendingPosition | src/lib/stores/teamStore.svelte.js:277-286 | stages a position for the first player with the id; no live lineup changes; an unknown id changes nothing |
| LineupEngine.ApplyPendingPositions | src/lib/stores/teamStore.svelte.js:291-299 | every player applies its staged position |
| LineupEngine.ApplyIsFullRosterCommit | src/lib/stores/teamStore.svelte.js:291-299 | a staged player goes to the field at the staged position and slot; every other player, even one on the field, is benched; nothing stays staged |
| LineupEngine.ClearPendingPositions | src/lib/stores/teamStore.svelte.js:304-312 | every player drops its staged pair; no live lineup changes |
| LineupEngine.InitializePendingFromActive | src/lib/stores/teamStore.svelte.js:317-329 | a field player stages their own position and slot; every other player drops the staged pair; no live lineup changes |
| LineupEngine.ClearThenApplyBenchesAll | src/lib/stores/teamStore.svelte.js:291-312 | clearing then committing benches the whole roster |
| LineupEngine.StageFromActiveThenApply | src/lib/stores/teamStore.svelte.js:291-329 | staging from the live lineup then committing keeps every field player in place and benches everyone else |
| LineupEngine.StagingIsIsolated | src/lib/stores/teamStore.svelte.js:277-286 | staging one player leaves every live position, status and slot alone |

## Left out

- Persistence (`src/lib/utils/storage.js`, `saveTeam`/`loadTeam`): `TeamStore.RestoreTeam` takes the loaded record as a parameter. `storage.js` is not part of this model.
- JSON text: a stored team is a `Teams.TeamJson` record. A saved formation comes back from JSON text as a plain object without its methods; that loss is not modelled.
- Id generation (`generateId`): the fresh id is a parameter of `InitializeTeam`, `SetSport` and `AddPlayer`. Freshness is a requirement of `TeamStore.AddPlayerKeepsIdsUnique`.
- Svelte reactivity (`$state`): the module-level variables are the explicit `TeamStore.State` record, and every store function returns the new state.
- The trivial getters `getTeam`, `getSport`, `getTeamSize` and `getFormation` read one field of `TeamStore.State`.
- The game store, the UI components and the build configuration are not part of this model.
- JavaScript object details are not modelled:
  - an update or player-data object may carry extra keys, which the constructor drops;
  - a formation's position object could have prototype keys;
  - an explicit `null` or `undefined` nickname is outside `string`.
  Formation keys are position names, never integer-like, so `Object.keys` gives them in insertion order, as the sequences used here do.
- The team constructor's destructuring defaults (`players = []`, `activeFormation = null`) apply only to a missing key. The model always receives both values, so it does not model an explicit `players: null`, which throws in `.map`, nor a falsy non-null `activeFormation`, which the constructor keeps as it is.
- Substitution and swap with slot indices: the player as written has no slot, so `TeamStore.SubstitutePlayers` and `TeamStore.SwapFieldPlayers` model them without slots. The slot-carrying versions are not modelled in `LineupEngine`.
- Players.AssignToPosition: `None` stands for both `null` and `undefined`, but `isOnField()` tests `position !== null`, so `assignToPosition(undefined)` puts a player on the field in JavaScript while the model says it does not. The store's refresh turns `undefined` back into `null` through the constructor's default, so only the entity level differs.
- Catalog.GetSportById: `SPORTS[sportId]` also returns inherited properties for ids such as `constructor` or `toString`; the model answers `None` for every id other than the two sports.
- Players.GetDisplayName: a first name with a UTF-16 surrogate pair would give half a character for `firstName[0]`; characters here are whole code points.
- DisplayName.GetDisplayName: a player object missing the name fields, which would print `undefined`, is not modelled; every `Named` has all three strings.
- Formations.TotalPlayers: JavaScript numbers are floating point; counts here are unbounded integers, which agree for the small counts of the catalog.

=== FILE: catalog.dfy ===
/** The constant sport catalog of `src/lib/config/sports.js`: soccer and
    field hockey, their positions and the formations offered per team size. */
module Catalog {
  import opened Wrappers
  import Seqs
  import opened Formations
  import opened Sports

  function Req(gk: int, def: int, mid: int, fwd: int): Requirements
  {
    [("Goalkeeper", gk), ("Defender", def), ("Midfielder", mid), ("Forward", fwd)]
  }

  const SOCCER_POSITIONS: seq<Position> := [
    Position("Goalkeeper", "GK", "bg-yellow-400", 1),
    Position("Defender", "DEF", "bg-blue-400", 4),
    Position("Midfielder", "MID", "bg-green-400", 3),
    Position("Forward", "FWD", "bg-red-400", 3)
  ]

  const SOCCER_7V7: seq<Formation> := [
    Formation("2-2-2", Req(1, 2, 2, 2)),
    Formation("2-3-1", Req(1, 2, 3, 1)),
    Formation("3-2-1", Req(1, 3, 2, 1))]

  const SOCCER_9V9: seq<Formation> := [
    Formation("3-3-2", Req(1, 3, 3, 2)),
    Formation("3-2-3", Req(1, 3, 2, 3)),
    Formation("3-4-1", Req(1, 3, 4, 1))]

  const SOCCER_11V11: seq<Formation> := [
    Formation("4-3-3", Req(1, 4, 3, 3)),
    Formation("4-4-2", Req(1, 4, 4, 2)),
    Formation("3-5-2", Req(1, 3, 5, 2)),
    Formation("4-2-3-1", Req(1, 4, 5, 1))]

  const SOCCER_FORMATIONS: seq<(string, seq<Formation>)> :=
    [("7v7", SOCCER_7V7), ("9v9", SOCCER_9V9), ("11v11", SOCCER_11V11)]

  const SOCCER: Sport := Sport("soccer", "Soccer", 7, 11, SOCCER_POSITIONS, SOCCER_FORMATIONS)

  const FIELD_HOCKEY_POSITIONS: seq<Position> := [
    Position("Goalkeeper", "GK", "bg-yellow-400", 1),
    Position("Defender", "DEF", "bg-blue-400", 3),
    Position("Midfielder", "MID", "bg-green-400", 3),
    Position("Forward", "FWD", "bg-red-400", 3)
  ]

  const FIELD_HOCKEY_6V6: seq<Formation> := [
    Formation("1-2-2", Req(1, 1, 2, 2)),
    Formation("2-1-2", Req(1, 2, 1, 2))]

  const FIELD_HOCKEY_7V7: seq<Formation> := [
    Formation("2-2-2", Req(1, 2, 2, 2)),
    Formation("2-3-1", Req(1, 2, 3, 1))]

  const FIELD_HOCKEY_11V11: seq<Formation> := [
    Formation("3-3-3", Req(1, 3, 3, 3)),
    Formation("4-3-3", Req(1, 4, 3, 3)),
    Formation("3-4-3", Req(1, 3, 4, 3))]

  const FIELD_HOCKEY_FORMATIONS: seq<(string, seq<Formation>)> :=
    [("6v6", FIELD_HOCKEY_6V6), ("7v7", FIELD_HOCKEY_7V7), ("11v11", FIELD_HOCKEY_11V11)]

  const FIELD_HOCKEY: Sport :=
    Sport("field_hockey", "Field Hockey", 6, 11, FIELD_HOCKEY_POSITIONS, FIELD_HOCKEY_FORMATIONS)

  /** `getSportById(id)`: `SPORTS[id]`. */
  function GetSportById(id: string): (r: Option<Sport>)
    ensures r.Some? <==> id == "soccer" || id == "field_hockey"
    ensures r.Some? ==> r.value.id == id
    ensures id == "soccer" ==> r == Some(SOCCER)
    ensures id == "field_hockey" ==> r == Some(FIELD_HOCKEY)
  {
    if id == "soccer" then Some(SOCCER)
    else if id == "field_hockey" then Some(FIELD_HOCKEY)
    else None
  }

  /** `getAllSports()`: `Object.values(SPORTS)`, in declaration order. */
  function GetAllSports(): (r: seq<Sport>)
    ensures forall i :: 0 <= i < |r| ==> GetSportById(r[i].id) == Some(r[i])
    ensures forall id :: GetSportById(id).Some? ==> GetSportById(id).value in r
    ensures |r| == 2
    ensures r[0].id == "soccer" && r[1].id == "field_hockey"
  {
    [SOCCER, FIELD_HOCKEY]
  }

  /** The sizes whose key has a list in a sport's formation table. */
  lemma KeysOfSizes()
    ensures SizeKey(6) == "6v6" && SizeKey(7) == "7v7" && SizeKey(9) == "9v9" && SizeKey(11) == "11v11"
  {
    assert Numerals.NatToString(11) == Numerals.NatToString(1) + [Numerals.DigitChar(1)];
  }

  /** Soccer allows sizes 7 to 11, but offers formations only for 7, 9 and
      11; sizes 8 and 10 get the empty list. */
  lemma SoccerFormationSizes(n: int)
    ensures IsValidTeamSize(SOCCER, n) <==> 7 <= n <= 11
    ensures |GetFormationsForTeamSize(SOCCER, n)| > 0 <==> n == 7 || n == 9 || n == 11
  {
    KeysOfSizes();
    var fs := SOCCER.formations;
    if n == 7 {
      Seqs.LookupFirst(fs, SizeKey(n), 0);
    } else if n == 9 {
      Seqs.LookupFirst(fs, SizeKey(n), 1);
    } else if n == 11 {
      Seqs.LookupFirst(fs, SizeKey(n), 2);
    } else {
      if SizeKey(n) == "7v7" { SizeKeyInjective(n, 7); }
      if SizeKey(n) == "9v9" { SizeKeyInjective(n, 9); }
      if SizeKey(n) == "11v11" { SizeKeyInjective(n, 11); }
      assert forall i :: 0 <= i < |fs| ==> fs[i].0 != SizeKey(n);
    }
  }

  /** Field hockey allows sizes 6 to 11, but offers formations only for 6, 7
      and 11. */
  lemma FieldHockeyFormationSizes(n: int)
    ensures IsValidTeamSize(FIELD_HOCKEY, n) <==> 6 <= n <= 11
    ensures |GetFormationsForTeamSize(FIELD_HOCKEY, n)| > 0 <==> n == 6 || n == 7 || n == 11
  {
    KeysOfSizes();
    var fs := FIELD_HOCKEY.formations;
    if n == 6 {
      Seqs.LookupFirst(fs, SizeKey(n), 0);
    } else if n == 7 {
      Seqs.LookupFirst(fs, SizeKey(n), 1);
    } else if n == 11 {
      Seqs.LookupFirst(fs, SizeKey(n), 2);
    } else {
      if SizeKey(n) == "6v6" { SizeKeyInjective(n, 6); }
      if SizeKey(n) == "7v7" { SizeKeyInjective(n, 7); }
      if SizeKey(n) == "11v11" { SizeKeyInjective(n, 11); }
      assert forall i :: 0 <= i < |fs| ==> fs[i].0 != SizeKey(n);
    }
  }

  /** The lists the two sports offer, size by size. */
  lemma FormationTables()
    ensures GetFormationsForTeamSize(SOCCER, 7) == SOCCER_7V7
    ensures GetFormationsForTeamSize(SOCCER, 9) == SOCCER_9V9
    ensures GetFormationsForTeamSize(SOCCER, 11) == SOCCER_11V11
    ensures GetFormationsForTeamSize(FIELD_HOCKEY, 6) == FIELD_HOCKEY_6V6
    ensures GetFormationsForTeamSize(FIELD_HOCKEY, 7) == FIELD_HOCKEY_7V7
    ensures GetFormationsForTeamSize(FIELD_HOCKEY, 11) == FIELD_HOCKEY_11V11
  {
    KeysOfSizes();
    Seqs.LookupFirst(SOCCER.formations, SizeKey(7), 0);
    Seqs.LookupFirst(SOCCER.formations, SizeKey(9), 1);
    Seqs.LookupFirst(SOCCER.formations, SizeKey(11), 2);
    Seqs.LookupFirst(FIELD_HOCKEY.formations, SizeKey(6), 0);
    Seqs.LookupFirst(FIELD_HOCKEY.formations, SizeKey(7), 1);
    Seqs.LookupFirst(FIELD_HOCKEY.formations, SizeKey(11), 2);
  }

  /** Total of a four-position requirement. */
  lemma ReqTotal(name: string, gk: int, def: int, mid: int, fwd: int)
    ensures TotalPlayers(Formation(name, Req(gk, def, mid, fwd))) == gk + def + mid + fwd
  {
    var ps := Req(gk, def, mid, fwd);
    assert ps[1..] == [("Defender", def), ("Midfielder", mid), ("Forward", fwd)];
    assert ps[1..][1..] == [("Midfielder", mid), ("Forward", fwd)];
    assert ps[1..][1..][1..] == [("Forward", fwd)];
    assert ps[1..][1..][1..][1..] == [];
    assert SumCounts(ps[1..][1..][1..]) == fwd;
    assert SumCounts(ps[1..][1..]) == mid + fwd;
    assert SumCounts(ps[1..]) == def + mid + fwd;
  }

  /** Every formation in a list has a total equal to `n`. */
  predicate AllFit(fs: seq<Formation>, n: int)
  {
    forall j :: 0 <= j < |fs| ==> IsValidForTeamSize(fs[j], n)
  }

  /** Every soccer list fits the size it is stored under. */
  lemma SoccerListsFit()
    ensures AllFit(SOCCER_7V7, 7) && AllFit(SOCCER_9V9, 9) && AllFit(SOCCER_11V11, 11)
  {
    ReqTotal("2-2-2", 1, 2, 2, 2);
    ReqTotal("2-3-1", 1, 2, 3, 1);
    ReqTotal("3-2-1", 1, 3, 2, 1);
    assert AllFit(SOCCER_7V7, 7) by {
      assert forall j :: 0 <= j < 3 ==> SOCCER_7V7[j] in {
        Formation("2-2-2", Req(1, 2, 2, 2)), Formation("2-3-1", Req(1, 2, 3, 1)),
        Formation("3-2-1", Req(1, 3, 2, 1))};
    }
    ReqTotal("3-3-2", 1, 3, 3, 2);
    ReqTotal("3-2-3", 1, 3, 2, 3);
    ReqTotal("3-4-1", 1, 3, 4, 1);
    assert AllFit(SOCCER_9V9, 9) by {
      assert forall j :: 0 <= j < 3 ==> SOCCER_9V9[j] in {
        Formation("3-3-2", Req(1, 3, 3, 2)), Formation("3-2-3", Req(1, 3, 2, 3)),
        Formation("3-4-1", Req(1, 3, 4, 1))};
    }
    ReqTotal("4-3-3", 1, 4, 3, 3);
    ReqTotal("4-4-2", 1, 4, 4, 2);
    ReqTotal("3-5-2", 1, 3, 5, 2);
    ReqTotal("4-2-3-1", 1, 4, 5, 1);
    assert AllFit(SOCCER_11V11, 11) by {
      assert forall j :: 0 <= j < 4 ==> SOCCER_11V11[j] in {
        Formation("4-3-3", Req(1, 4, 3, 3)), Formation("4-4-2", Req(1, 4, 4, 2)),
        Formation("3-5-2", Req(1, 3, 5, 2)), Formation("4-2-3-1", Req(1, 4, 5, 1))};
    }
  }

  /** Every soccer formation is valid for the size it is offered under. */
  lemma SoccerFormationsFitTheirSize(n: int)
    ensures AllFit(GetFormationsForTeamSize(SOCCER, n), n)
  {
    SoccerFormationSizes(n);
    FormationTables();
    SoccerListsFit();
  }

  /** Totals of the field-hockey lists: all fit except the first 11-a-side one. */
  lemma FieldHockeyListsFit()
    ensures AllFit(FIELD_HOCKEY_6V6, 6) && AllFit(FIELD_HOCKEY_7V7, 7)
    ensures AllFit(FIELD_HOCKEY_11V11[1..], 11)
    ensures TotalPlayers(FIELD_HOCKEY_11V11[0]) == 10
  {
    assert AllFit(FIELD_HOCKEY_6V6, 6) by {
      ReqTotal("1-2-2", 1, 1, 2, 2);
      ReqTotal("2-1-2", 1, 2, 1, 2);
      assert forall j :: 0 <= j < 2 ==> FIELD_HOCKEY_6V6[j] in {
        Formation("1-2-2", Req(1, 1, 2, 2)), Formation("2-1-2", Req(1, 2, 1, 2))};
    }
    assert AllFit(FIELD_HOCKEY_7V7, 7) by {
      ReqTotal("2-2-2", 1, 2, 2, 2);
      ReqTotal("2-3-1", 1, 2, 3, 1);
      assert forall j :: 0 <= j < 2 ==> FIELD_HOCKEY_7V7[j] in {
        Formation("2-2-2", Req(1, 2, 2, 2)), Formation("2-3-1", Req(1, 2, 3, 1))};
    }
    assert AllFit(FIELD_HOCKEY_11V11[1..], 11) by {
      ReqTotal("4-3-3", 1, 4, 3, 3);
      ReqTotal("3-4-3", 1, 3, 4, 3);
      assert forall j :: 0 <= j < 2 ==> FIELD_HOCKEY_11V11[1..][j] in {
        Formation("4-3-3", Req(1, 4, 3, 3)), Formation("3-4-3", Req(1, 3, 4, 3))};
    }
    ReqTotal("3-3-3", 1, 3, 3, 3);
  }

  /** Every field-hockey formation is valid for the size it is offered under
      except `'3-3-3'` under `'11v11'`, whose counts add up to 10. */
  lemma FieldHockeyFormationsFitTheirSize(n: int, j: nat)
    requires j < |GetFormationsForTeamSize(FIELD_HOCKEY, n)|
    ensures var f := GetFormationsForTeamSize(FIELD_HOCKEY, n)[j];
            IsValidForTeamSize(f, n) <==> !(n == 11 && f.name == "3-3-3")
  {
    FieldHockeyFormationSizes(n);
    FormationTables();
    FieldHockeyListsFit();
    if n == 11 && j > 0 {
      assert FIELD_HOCKEY_11V11[j] == FIELD_HOCKEY_11V11[1..][j - 1];
    }
  }

  /** The first formation offered for an 11-a-side field-hockey team, the
      one a new team starts with, does not fit that team size. */
  lemma FieldHockeyDefaultElevenIsShort()
    ensures var f := GetFormationsForTeamSize(FIELD_HOCKEY, 11)[0];
            f.name == "3-3-3" && TotalPlayers(f) == 10 && !IsValidForTeamSize(f, 11)
  {
    FormationTables();
    FieldHockeyListsFit();
  }

  /** Every position of the two sports, by name. */
  lemma PositionsByName(s: Sport)
    requires s == SOCCER || s == FIELD_HOCKEY
    ensures GetPosition(s, "Goalkeeper") == Some(s.positions[0])
    ensures GetPosition(s, "Defender") == Some(s.positions[1])
    ensures GetPosition(s, "Midfielder") == Some(s.positions[2])
    ensures GetPosition(s, "Forward") == Some(s.positions[3])
  {
  }

  /** The four position keys of the catalog, in the catalog's order. */
  predicate StandardKeys(f: Formation)
  {
    && |f.positions| == 4
    && f.positions[0].0 == "Goalkeeper" && f.positions[1].0 == "Defender"
    && f.positions[2].0 == "Midfielder" && f.positions[3].0 == "Forward"
  }

  predicate AllStandard(fs: seq<Formation>)
  {
    forall j :: 0 <= j < |fs| ==> StandardKeys(fs[j])
  }

  lemma SoccerListsStandard()
    ensures AllStandard(SOCCER_7V7) && AllStandard(SOCCER_9V9) && AllStandard(SOCCER_11V11)
  {
  }

  lemma FieldHockeyListsStandard()
    ensures AllStandard(FIELD_HOCKEY_6V6) && AllStandard(FIELD_HOCKEY_7V7)
    ensures AllStandard(FIELD_HOCKEY_11V11)
  {
  }

  /** Every formation the soccer catalog offers has the four standard keys. */
  lemma SoccerHasStandardKeys(n: int)
    ensures AllStandard(GetFormationsForTeamSize(SOCCER, n))
  {
    SoccerFormationSizes(n);
    assert n == 7 ==> GetFormationsForTeamSize(SOCCER, n) == SOCCER_7V7 by { FormationTables(); }
    assert n == 9 ==> GetFormationsForTeamSize(SOCCER, n) == SOCCER_9V9 by { FormationTables(); }
    assert n == 11 ==> GetFormationsForTeamSize(SOCCER, n) == SOCCER_11V11 by { FormationTables(); }
    SoccerListsStandard();
  }

  /** Every formation the field-hockey catalog offers has the four standard keys. */
  lemma FieldHockeyHasStandardKeys(n: int)
    ensures AllStandard(GetFormationsForTeamSize(FIELD_HOCKEY, n))
  {
    FieldHockeyFormationSizes(n);
    assert n == 6 ==> GetFormationsForTeamSize(FIELD_HOCKEY, n) == FIELD_HOCKEY_6V6 by { FormationTables(); }
    assert n == 7 ==> GetFormationsForTeamSize(FIELD_HOCKEY, n) == FIELD_HOCKEY_7V7 by { FormationTables(); }
    assert n == 11 ==> GetFormationsForTeamSize(FIELD_HOCKEY, n) == FIELD_HOCKEY_11V11 by { FormationTables(); }
    FieldHockeyListsStandard();
  }

  /** A sport whose first four positions carry the four standard names. */
  predicate StandardPositions(s: Sport)
  {
    && |s.positions| >= 4
    && s.positions[0].name == "Goalkeeper" && s.positions[1].name == "Defender"
    && s.positions[2].name == "Midfielder" && s.positions[3].name == "Forward"
  }

  /** A formation with the standard keys only names positions of a sport
      with the standard positions, and repeats no key. */
  lemma StandardKeysArePositions(s: Sport, f: Formation)
    requires StandardPositions(s) && StandardKeys(f)
    ensures forall k :: 0 <= k < |f.positions| ==> GetPosition(s, f.positions[k].0).Some?
    ensures Seqs.DistinctKeys(f.positions)
  {
    forall k | 0 <= k < |f.positions| ensures GetPosition(s, f.positions[k].0).Some? {
      assert s.positions[k].name == f.positions[k].0;
    }
  }

  /** Every formation key of the catalog names a position of its sport, and
      no formation repeats a key. */
  lemma FormationKeysArePositions(s: Sport, n: int, j: nat)
    requires s == SOCCER || s == FIELD_HOCKEY
    requires j < |GetFormationsForTeamSize(s, n)|
    ensures var f := GetFormationsForTeamSize(s, n)[j];
            && (forall k :: 0 <= k < |f.positions| ==> GetPosition(s, f.positions[k].0).Some?)
            && Seqs.DistinctKeys(f.positions)
  {
    if s == SOCCER {
      SoccerHasStandardKeys(n);
      assert StandardPositions(SOCCER);
    } else {
      FieldHockeyHasStandardKeys(n);
      assert StandardPositions(FIELD_HOCKEY);
    }
    StandardKeysArePositions(s, GetFormationsForTeamSize(s, n)[j]);
  }

  /** `defaultCount` is not a capacity: the soccer 3-5-2 asks for five
      midfielders against a default of three. */
  lemma SoccerDefaultCountIsNotACapacity()
    ensures var f := SOCCER_11V11[2];
            f in GetFormationsForTeamSize(SOCCER, 11)
            && f.name == "3-5-2" && GetPositionCount(f, "Midfielder") == 5
            && GetPosition(SOCCER, "Midfielder").value.defaultCount == 3
  {
    assert SOCCER_11V11[2] in GetFormationsForTeamSize(SOCCER, 11) by {
      FormationTables();
    }
    assert GetPositionCount(SOCCER_11V11[2], "Midfielder") == 5 by {
      Seqs.LookupFirst(Req(1, 3, 5, 2), "Midfielder", 2);
    }
    assert GetPosition(SOCCER, "Midfielder").value.defaultCount == 3 by {
      PositionsByName(SOCCER);
    }
  }

  /** Likewise the field-hockey 4-3-3 asks for four defenders against a
      default of three. */
  lemma FieldHockeyDefaultCountIsNotACapacity()
    ensures var f := FIELD_HOCKEY_11V11[1];
            f in GetFormationsForTeamSize(FIELD_HOCKEY, 11)
            && f.name == "4-3-3" && GetPositionCount(f, "Defender") == 4
            && GetPosition(FIELD_HOCKEY, "Defender").value.defaultCount == 3
  {
    assert FIELD_HOCKEY_11V11[1] in GetFormationsForTeamSize(FIELD_HOCKEY, 11) by {
      FormationTables();
    }
    assert GetPositionCount(FIELD_HOCKEY_11V11[1], "Defender") == 4 by {
      Seqs.LookupFirst(Req(1, 4, 3, 3), "Defender", 1);
    }
    assert GetPosition(FIELD_HOCKEY, "Defender").value.defaultCount == 3 by {
      PositionsByName(FIELD_HOCKEY);
    }
  }
}

=== FILE: display_name.dfy ===
/** The stand-alone formatter of `src/lib/utils/displayName.js`. It accepts
    any object with name fields, or `null`/`undefined`. */
module DisplayName {
  import opened Wrappers
  import Players

  /** The three fields the formatter reads. */
  datatype Named = Named(firstName: string, lastName: string, nickname: string)

  /** The name fields of a player entity. */
  function NamesOf(p: Players.Player): Named
  {
    Named(p.firstName, p.lastName, p.nickname)
  }

  /** `getDisplayName(player, format)`; the caller's default format is `'full'`. */
  function GetDisplayName(player: Option<Named>, format: string): (r: string)
    ensures player.None? ==> r == ""
    ensures player.Some? && format == "nickname" && player.value.nickname != ""
            ==> r == player.value.nickname
    ensures player.Some? && format == "last" && |player.value.firstName| > 0
            ==> r == player.value.lastName + ", " + [player.value.firstName[0]] + "."
    ensures player.Some? && format == "last" && |player.value.firstName| == 0
            ==> r == player.value.lastName + ", undefined."
    ensures player.Some? && format != "last" && !(format == "nickname" && player.value.nickname != "")
            ==> r == player.value.firstName + " " + player.value.lastName
  {
    match player
    case None => ""
    case Some(p) =>
      if format == "nickname" && p.nickname != "" then p.nickname
      else if format == "last" then p.lastName + ", " + Players.FirstCharText(p.firstName) + "."
      else p.firstName + " " + p.lastName
  }

  /** The formatter and the entity's own method agree on every player and
      every format, including an empty first name under `'last'`. */
  lemma AgreesWithPlayer(p: Players.Player, format: string)
    ensures GetDisplayName(Some(NamesOf(p)), format) == Players.GetDisplayName(p, format)
  {
  }

  /** A nickname request without a nickname falls back to the full name. */
  lemma NicknameFallback(n: Named)
    requires n.nickname == ""
    ensures GetDisplayName(Some(n), "nickname") == GetDisplayName(Some(n), "full")
  {
  }
}

=== FILE: formations.dfy ===
/** The formation of `src/lib/models/Formation.js`: a name and an ordered
    mapping from position name to required head count. The JavaScript object
    keeps insertion order and cannot repeat a key; here the mapping is a
    sequence of pairs and `DistinctKeys` states the no-repeat property. */
module Formations {
  import opened Wrappers
  import Seqs

  type Requirements = seq<(string, int)>

  datatype Formation = Formation(name: string, positions: Requirements)

  /** `positions[name]`: the count stored under `name`, or `undefined`. */
  function Lookup(ps: Requirements, name: string): Option<int>
  {
    Seqs.LookupKey(ps, name)
  }

  /** Sum of all counts, in key order. */
  function SumCounts(ps: Requirements): int
  {
    if |ps| == 0 then 0 else ps[0].1 + SumCounts(ps[1..])
  }

  /** `getTotalPlayers()`: the sum of every required count. */
  function TotalPlayers(f: Formation): (r: int)
    ensures |f.positions| == 0 ==> r == 0
    ensures (forall i :: 0 <= i < |f.positions| ==> f.positions[i].1 >= 0) ==> r >= 0
  {
    SumCountsNonNegative(f.positions);
    SumCounts(f.positions)
  }

  lemma {:induction false} SumCountsNonNegative(ps: Requirements)
    ensures (forall i :: 0 <= i < |ps| ==> ps[i].1 >= 0) ==> SumCounts(ps) >= 0
  {
    if |ps| > 0 {
      SumCountsNonNegative(ps[1..]);
      if forall i :: 0 <= i < |ps| ==> ps[i].1 >= 0 {
        assert forall i :: 0 <= i < |ps[1..]| ==> ps[1..][i] == ps[i + 1];
      }
    }
  }

  /** `getPositionCount(name)`: the stored count, or 0 when the name is absent. */
  function GetPositionCount(f: Formation, name: string): (r: int)
    ensures (forall i :: 0 <= i < |f.positions| ==> f.positions[i].0 != name) ==> r == 0
    ensures forall i :: 0 <= i < |f.positions| && f.positions[i].0 == name && Seqs.DistinctKeys(f.positions)
                        ==> r == f.positions[i].1
  {
    forall i | 0 <= i < |f.positions| && f.positions[i].0 == name && Seqs.DistinctKeys(f.positions) {
      Seqs.LookupStored(f.positions, i);
    }
    Lookup(f.positions, name).GetOr(0)
  }

  /** `hasPosition(name)`: the name is present with a positive count
      (`undefined > 0` is false). */
  function HasPosition(f: Formation, name: string): (r: bool)
    ensures (forall i :: 0 <= i < |f.positions| ==> f.positions[i].0 != name) ==> !r
    ensures Seqs.DistinctKeys(f.positions) ==>
              (r <==> exists i :: 0 <= i < |f.positions| && f.positions[i].0 == name
                                  && f.positions[i].1 > 0)
  {
    GetPositionCount(f, name) > 0
  }

  /** `getPositionNames()`: the keys, in insertion order. */
  function GetPositionNames(f: Formation): (r: seq<string>)
    ensures |r| == |f.positions|
    ensures forall i :: 0 <= i < |r| ==> r[i] == f.positions[i].0
  {
    seq(|f.positions|, i requires 0 <= i < |f.positions| => f.positions[i].0)
  }

  /** `isValidForTeamSize(teamSize)`: the counts add up to the team size.
      With distinct keys this is the sum of `getPositionCount` over
      `getPositionNames()`. */
  predicate IsValidForTeamSize(f: Formation, teamSize: int)
    ensures |f.positions| == 0 ==> (IsValidForTeamSize(f, teamSize) <==> teamSize == 0)
    ensures Seqs.DistinctKeys(f.positions) ==>
              (IsValidForTeamSize(f, teamSize) <==> SumLookups(f, GetPositionNames(f)) == teamSize)
  {
    if Seqs.DistinctKeys(f.positions) then
      TotalIsSumOfPositionCounts(f);
      TotalPlayers(f) == teamSize
    else
      TotalPlayers(f) == teamSize
  }

  /** Sum of `getPositionCount` over a list of names. */
  function SumLookups(f: Formation, names: seq<string>): int
  {
    if |names| == 0 then 0 else GetPositionCount(f, names[0]) + SumLookups(f, names[1..])
  }

  /** With distinct keys, the total is the sum of `getPositionCount` over
      `getPositionNames()`: the three queries describe the same mapping. */
  lemma {:induction false} TotalIsSumOfPositionCounts(f: Formation)
    requires Seqs.DistinctKeys(f.positions)
    ensures TotalPlayers(f) == SumLookups(f, GetPositionNames(f))
    decreases |f.positions|
  {
    var ps := f.positions;
    if |ps| > 0 {
      var t := Formation(f.name, ps[1..]);
      assert Seqs.DistinctKeys(t.positions) by {
        forall i, j | 0 <= i < j < |t.positions| ensures t.positions[i].0 != t.positions[j].0 {
          assert t.positions[i] == ps[i + 1] && t.positions[j] == ps[j + 1];
        }
      }
      TotalIsSumOfPositionCounts(t);
      var names := GetPositionNames(f);
      assert names[1..] == GetPositionNames(t);
      assert GetPositionCount(f, names[0]) == ps[0].1;
      forall k | 0 <= k < |names[1..]| ensures names[1..][k] != ps[0].0 {
        assert names[1..][k] == ps[k + 1].0;
      }
      SumLookupsSkipsHead(f, t, names[1..]);
    }
  }

  /** Dropping a leading pair does not change the count of any other name. */
  lemma {:induction false} SumLookupsSkipsHead(f: Formation, t: Formation, names: seq<string>)
    requires |f.positions| > 0 && t.positions == f.positions[1..]
    requires forall k :: 0 <= k < |names| ==> names[k] != f.positions[0].0
    ensures SumLookups(f, names) == SumLookups(t, names)
  {
    if |names| > 0 {
      assert Lookup(f.positions, names[0]) == Lookup(t.positions, names[0]);
      SumLookupsSkipsHead(f, t, names[1..]);
    }
  }
}

=== FILE: lineup_engine.dfy ===
/** The store's pending-lineup workflow (`src/lib/stores/teamStore.svelte.js`,
    lines 277-329) over a roster of `LineupPlayers.LineupPlayer`, that is,
    with the player methods the tests specify. The no-team gate and the
    final refresh are the store's: with the ten-key serialization the
    refresh changes nothing (`LineupPlayers.JsonRoundTrip`), so each
    operation here is the roster the store would hold afterwards. */
module LineupEngine {
  import opened Wrappers
  import Players
  import Teams
  import opened LineupPlayers

  type Roster = seq<LineupPlayer>

  /** The base players of a roster, for id lookups. */
  function Bases(ps: Roster): (r: seq<Players.Player>)
    ensures |r| == |ps| && forall i :: 0 <= i < |ps| ==> r[i] == ps[i].base
  {
    seq(|ps|, i requires 0 <= i < |ps| => ps[i].base)
  }

  /** Status, position and slot: the fields a lineup on the field shows. */
  predicate SameActive(a: LineupPlayer, b: LineupPlayer)
  {
    a.base == b.base && a.positionIndex == b.positionIndex
  }

  /** `assignPlayerToPendingPosition(id, pos, slot)`: stages a position for
      the first player with the id; a missing id changes nothing. */
  function AssignPlayerToPendingPosition(ps: Roster, id: string, pos: Option<string>, slot: Option<int>)
    : (r: Roster)
    ensures |r| == |ps|
    ensures forall i :: 0 <= i < |ps| ==> SameActive(r[i], ps[i])
    ensures match Teams.FindIndex(Bases(ps), id)
            case None => r == ps
            case Some(k) => r[k].pendingPosition == pos && r[k].pendingPositionIndex == slot
                            && forall i :: 0 <= i < |ps| && i != k ==> r[i] == ps[i]
  {
    match Teams.FindIndex(Bases(ps), id)
    case None => ps
    case Some(k) => ps[k := AssignToPendingPosition(ps[k], pos, slot)]
  }

  /** `applyPendingPositions()`: every player applies its staged position. */
  function ApplyPendingPositions(ps: Roster): (r: Roster)
    ensures |r| == |ps|
    ensures forall i :: 0 <= i < |ps| ==> r[i] == ApplyPendingPosition(ps[i])
  {
    seq(|ps|, i requires 0 <= i < |ps| => ApplyPendingPosition(ps[i]))
  }

  /** The commit is all-or-nothing per roster: a player with something
      staged takes it to the field, every other player, including one on
      the field, is benched; afterwards nothing is staged. */
  lemma ApplyIsFullRosterCommit(ps: Roster)
    ensures var r := ApplyPendingPositions(ps);
            forall i :: 0 <= i < |ps| ==>
              && r[i].base.id == ps[i].base.id
              && (ps[i].pendingPosition.Some? ==>
                    IsOnField(r[i]) && r[i].base.position == ps[i].pendingPosition
                    && r[i].positionIndex == ps[i].pendingPositionIndex)
              && (ps[i].pendingPosition.None? ==>
                    IsOnBench(r[i]) && !IsOnField(r[i]) && r[i].positionIndex.None?)
              && r[i].pendingPosition.None?
  {
  }

  /** `clearPendingPositions()`: every player drops its staged pair. */
  function ClearPendingPositions(ps: Roster): (r: Roster)
    ensures |r| == |ps|
    ensures forall i :: 0 <= i < |ps| ==>
              SameActive(r[i], ps[i]) && r[i].pendingPosition.None? && r[i].pendingPositionIndex.None?
  {
    seq(|ps|, i requires 0 <= i < |ps| => ClearPendingPosition(ps[i]))
  }

  /** `initializePendingFromActive()`: a player on the field stages its own
      position and slot; every other player drops its staged pair. */
  function InitializePendingFromActive(ps: Roster): (r: Roster)
    ensures |r| == |ps|
    ensures forall i :: 0 <= i < |ps| ==> SameActive(r[i], ps[i])
    ensures forall i :: 0 <= i < |ps| ==>
              if IsOnField(ps[i]) then
                r[i].pendingPosition == ps[i].base.position
                && r[i].pendingPositionIndex == ps[i].positionIndex
              else
                r[i].pendingPosition.None? && r[i].pendingPositionIndex.None?
  {
    seq(|ps|, i requires 0 <= i < |ps| =>
      if IsOnField(ps[i]) then AssignToPendingPosition(ps[i], ps[i].base.position, ps[i].positionIndex)
      else ClearPendingPosition(ps[i]))
  }

  /** Clearing everything and then committing benches the whole roster and
      keeps each player's identity and name fields. */
  lemma ClearThenApplyBenchesAll(ps: Roster)
    ensures var r := ApplyPendingPositions(ClearPendingPositions(ps));
            && |r| == |ps|
            && forall i :: 0 <= i < |ps| ==>
                 && IsOnBench(r[i]) && !IsOnField(r[i])
                 && r[i].base.position.None? && r[i].positionIndex.None?
                 && r[i].base == Players.MoveToBench(ps[i].base)
  {
  }

  /** Staging from the live lineup and committing keeps every field
      player's position and slot, and benches everyone else, including a
      player whose status says field but who has no position. */
  lemma StageFromActiveThenApply(ps: Roster)
    ensures var r := ApplyPendingPositions(InitializePendingFromActive(ps));
            && |r| == |ps|
            && forall i :: 0 <= i < |ps| ==>
                 && (IsOnField(ps[i]) ==> SameActive(r[i], ps[i]))
                 && (!IsOnField(ps[i]) ==>
                       r[i].base == Players.MoveToBench(ps[i].base) && r[i].positionIndex.None?)
                 && r[i].pendingPosition.None?
  {
    var s := InitializePendingFromActive(ps);
    var r := ApplyPendingPositions(s);
    forall i | 0 <= i < |ps| && IsOnField(ps[i]) ensures SameActive(r[i], ps[i]) {
      assert Players.AssignToPosition(ps[i].base, ps[i].base.position) == ps[i].base;
    }
  }

  /** Staging one player leaves every player's live lineup alone, so a
      staging session changes nothing on the field until the commit. */
  lemma StagingIsIsolated(ps: Roster, id: string, pos: Option<string>, slot: Option<int>)
    ensures var r := AssignPlayerToPendingPosition(ps, id, pos, slot);
            forall i :: 0 <= i < |ps| ==>
              r[i].base.status == ps[i].base.status && r[i].base.position == ps[i].base.position
              && r[i].positionIndex == ps[i].positionIndex
  {
  }
}

=== FILE: lineup_players.dfy ===
/** The slot and pending-lineup extension of the player entity.

    `src/lib/models/Player.js` as written has no `positionIndex`,
    `pendingPosition` or `pendingPositionIndex`, no `assignToPendingPosition`,
    `clearPendingPosition` or `applyPendingPosition`, and its
    `assignToPosition` ignores a slot argument. The store nevertheless calls
    these methods with slots, and the player tests assert them. This module
    gives them the meaning the tests state (`Player.test.js`, lines 75-128),
    layered over the base entity of `Players`: every operation here acts on
    the base fields exactly as the base operation does. Against the base
    entity alone, the store's pending functions throw; `TeamStore` models
    that. */
module LineupPlayers {
  import opened Wrappers
  import Players

  /** A base player plus the active slot and the staged (pending) position
      and slot. */
  datatype LineupPlayer = LineupPlayer(
    base: Players.Player,
    positionIndex: Option<int>,
    pendingPosition: Option<string>,
    pendingPositionIndex: Option<int>)

  /** A base player with no slot and nothing staged. */
  function FromBase(p: Players.Player): (e: LineupPlayer)
    ensures e.base == p && e.positionIndex.None?
    ensures e.pendingPosition.None? && e.pendingPositionIndex.None?
  {
    LineupPlayer(p, None, None, None)
  }

  /** `isOnField()` and `isOnBench()` read the base status and position
      only, never the slot or anything staged. */
  predicate IsOnField(e: LineupPlayer)
    ensures IsOnField(e) ==> e.base.position.Some? && !Players.IsOnBench(e.base)
    ensures IsOnField(e) <==> e.base.status == Players.ON_FIELD && e.base.position.Some?
  {
    Players.IsOnField(e.base)
  }

  predicate IsOnBench(e: LineupPlayer)
    ensures IsOnBench(e) ==> !IsOnField(e)
    ensures IsOnBench(e) <==> e.base.status == Players.ON_BENCH
  {
    Players.IsOnBench(e.base)
  }

  /** `assignToPosition(pos, slot)`: the base assignment, plus the slot. The
      staged pair is untouched. */
  function AssignToPosition(e: LineupPlayer, pos: Option<string>, slot: Option<int>): (r: LineupPlayer)
    ensures r.base == Players.AssignToPosition(e.base, pos)
    ensures r.positionIndex == slot
    ensures r.pendingPosition == e.pendingPosition && r.pendingPositionIndex == e.pendingPositionIndex
  {
    e.(base := Players.AssignToPosition(e.base, pos), positionIndex := slot)
  }

  /** `moveToBench()`: the base benching, plus clearing the slot. */
  function MoveToBench(e: LineupPlayer): (r: LineupPlayer)
    ensures r.base == Players.MoveToBench(e.base)
    ensures r.positionIndex.None?
    ensures r.pendingPosition == e.pendingPosition && r.pendingPositionIndex == e.pendingPositionIndex
  {
    e.(base := Players.MoveToBench(e.base), positionIndex := None)
  }

  /** Benching before an assignment has no effect on the result, slot included. */
  lemma BenchThenAssign(e: LineupPlayer, pos: Option<string>, slot: Option<int>)
    ensures AssignToPosition(MoveToBench(e), pos, slot) == AssignToPosition(e, pos, slot)
  {
    Players.BenchThenAssign(e.base, pos);
  }

  /** `assignToPendingPosition(pos, slot)`: stages a position without
      touching status, position or slot. */
  function AssignToPendingPosition(e: LineupPlayer, pos: Option<string>, slot: Option<int>): (r: LineupPlayer)
    ensures r.base == e.base && r.positionIndex == e.positionIndex
    ensures r.pendingPosition == pos && r.pendingPositionIndex == slot
  {
    e.(pendingPosition := pos, pendingPositionIndex := slot)
  }

  /** `clearPendingPosition()`: drops the staged pair. */
  function ClearPendingPosition(e: LineupPlayer): (r: LineupPlayer)
    ensures r.base == e.base && r.positionIndex == e.positionIndex
    ensures r.pendingPosition.None? && r.pendingPositionIndex.None?
  {
    e.(pendingPosition := None, pendingPositionIndex := None)
  }

  /** `applyPendingPosition()`: with a staged position, takes it (and its
      slot) onto the field and clears the staged pair; without one, benches. */
  function ApplyPendingPosition(e: LineupPlayer): (r: LineupPlayer)
    ensures e.pendingPosition.Some? ==>
              && r.base == Players.AssignToPosition(e.base, e.pendingPosition)
              && Players.IsOnField(r.base)
              && r.positionIndex == e.pendingPositionIndex
              && r.pendingPosition.None? && r.pendingPositionIndex.None?
    ensures e.pendingPosition.None? ==> r == MoveToBench(e) && Players.IsOnBench(r.base)
  {
    if e.pendingPosition.Some? then
      ClearPendingPosition(AssignToPosition(e, e.pendingPosition, e.pendingPositionIndex))
    else
      MoveToBench(e)
  }

  /** Staging then applying is assigning directly, with nothing left staged. */
  lemma StageThenApply(e: LineupPlayer, pos: string, slot: Option<int>)
    ensures ApplyPendingPosition(AssignToPendingPosition(e, Some(pos), slot))
            == ClearPendingPosition(AssignToPosition(e, Some(pos), slot))
  {
  }

  /** Clearing then applying benches, whatever was staged. */
  lemma ClearThenApply(e: LineupPlayer)
    ensures ApplyPendingPosition(ClearPendingPosition(e)) == MoveToBench(ClearPendingPosition(e))
    ensures IsOnBench(ApplyPendingPosition(ClearPendingPosition(e)))
  {
  }

  /** The ten-key object the tests expect from `toJSON()`: the seven base
      keys plus the slot and the staged pair. */
  datatype LineupJson = LineupJson(
    player: Players.PlayerJson,
    positionIndex: Option<int>,
    pendingPosition: Option<string>,
    pendingPositionIndex: Option<int>)

  function ToJson(e: LineupPlayer): (j: LineupJson)
    ensures j.player == Players.ToJson(e.base)
    ensures j.positionIndex == e.positionIndex
    ensures j.pendingPosition == e.pendingPosition && j.pendingPositionIndex == e.pendingPositionIndex
  {
    LineupJson(Players.ToJson(e.base), e.positionIndex, e.pendingPosition, e.pendingPositionIndex)
  }

  /** `Player.fromJSON(data)` over the ten-key record: the rebuilt player
      serializes back to exactly that record. */
  function FromJson(j: LineupJson): (r: LineupPlayer)
    ensures ToJson(r) == j
  {
    LineupPlayer(Players.FromJson(j.player), j.positionIndex, j.pendingPosition, j.pendingPositionIndex)
  }

  /** With the ten-key serialization, the round trip keeps every field. */
  lemma JsonRoundTrip(e: LineupPlayer)
    ensures FromJson(ToJson(e)) == e
  {
    Players.JsonRoundTrip(e.base);
  }

  /** Through the seven-key `toJSON()` of the base entity, the round trip
      keeps the base fields and drops the slot and anything staged. */
  function BaseRoundTrip(e: LineupPlayer): LineupPlayer
  {
    FromBase(Players.FromJson(Players.ToJson(e.base)))
  }

  /** So, over the base serialization, staging a position has no lasting
      effect once the store refreshes the team. */
  lemma BaseRoundTripForgetsStaging(e: LineupPlayer, pos: Option<string>, slot: Option<int>)
    ensures BaseRoundTrip(AssignToPendingPosition(e, pos, slot)) == BaseRoundTrip(e)
    ensures BaseRoundTrip(e).pendingPosition.None? && BaseRoundTrip(e).positionIndex.None?
    ensures BaseRoundTrip(e).base == e.base
  {
    Players.JsonRoundTrip(e.base);
  }
}

=== FILE: numerals.dfy ===
/** Decimal text of an integer, as JavaScript's template literal `${n}`
    writes it, and the parse that inverts it. Used to build the `"NvN"`
    keys under which a sport stores its formations. */
module Numerals {

  predicate IsDigit(c: char)
  {
    '0' <= c <= '9'
  }

  function DigitChar(d: nat): (c: char)
    requires d < 10
    ensures IsDigit(c)
  {
    (48 + d) as char
  }

  function DigitValue(c: char): (d: nat)
    requires IsDigit(c)
    ensures d < 10 && DigitChar(d) == c
  {
    (c as int - 48) as nat
  }

  /** Decimal digits of `n`, most significant first, no leading zero. */
  function NatToString(n: nat): (s: string)
    ensures |s| > 0
    ensures forall i :: 0 <= i < |s| ==> IsDigit(s[i])
  {
    if n < 10 then [DigitChar(n)] else NatToString(n / 10) + [DigitChar(n % 10)]
  }

  /** `${n}` for the integers a team size takes (JavaScript switches to
      exponent notation from 1e21 on, which is not modelled). */
  function IntToString(n: int): (s: string)
    ensures |s| > 0
    ensures forall i :: 0 <= i < |s| ==> IsDigit(s[i]) || s[i] == '-'
  {
    if n < 0 then "-" + NatToString(-n) else NatToString(n)
  }

  /** Value of a string of decimal digits. */
  function ParseNat(s: string): nat
    requires forall i :: 0 <= i < |s| ==> IsDigit(s[i])
  {
    if |s| == 0 then 0 else ParseNat(s[..|s| - 1]) * 10 + DigitValue(s[|s| - 1])
  }

  /** Value of the text `IntToString` writes. */
  function ParseInt(s: string): int
    requires |s| > 0
    requires forall i :: 0 <= i < |s| ==> IsDigit(s[i]) || s[i] == '-'
    requires forall i :: 1 <= i < |s| ==> IsDigit(s[i])
  {
    if s[0] == '-' then 0 - (ParseNat(s[1..]) as int) else ParseNat(s)
  }

  lemma {:induction false} NatRoundTrip(n: nat)
    ensures ParseNat(NatToString(n)) == n
  {
    if n >= 10 {
      var s := NatToString(n);
      assert s[..|s| - 1] == NatToString(n / 10);
      NatRoundTrip(n / 10);
    }
  }

  /** Parsing the written text gives back the integer. */
  lemma IntRoundTrip(n: int)
    ensures var s := IntToString(n);
            (forall i :: 1 <= i < |s| ==> IsDigit(s[i])) && ParseInt(s) == n
  {
    var s := IntToString(n);
    if n < 0 {
      assert s[1..] == NatToString(-n);
      NatRoundTrip(-n);
    } else {
      NatRoundTrip(n);
    }
  }

  /** Different integers are written differently. */
  lemma IntToStringInjective(n: int, m: int)
    requires IntToString(n) == IntToString(m)
    ensures n == m
  {
    IntRoundTrip(n);
    IntRoundTrip(m);
  }
}

=== FILE: players.dfy ===
/** The player entity of `src/lib/models/Player.js`, exactly as that file is
    written: seven fields, no slot index and no pending position. The slot and
    pending-lineup fields the store and the tests expect live in the separate
    `LineupPlayers` module. */
module Players {
  import opened Wrappers

  /** The two status strings the code writes. The constructor accepts any string. */
  const ON_FIELD: string := "on_field"
  const ON_BENCH: string := "on_bench"

  /** A player. `position` is a position name or `null` (`None`). */
  datatype Player = Player(
    id: string,
    firstName: string,
    lastName: string,
    nickname: string,
    jerseyNumber: string,
    status: string,
    position: Option<string>)

  /** The object passed to `new Player({...})`. `None` means the key is
      omitted, so the constructor's default applies; for `position`, an
      omitted key and an explicit `null` both give `null`. */
  datatype PlayerInit = PlayerInit(
    id: string,
    firstName: string,
    lastName: string,
    nickname: Option<string>,
    jerseyNumber: Option<string>,
    status: Option<string>,
    position: Option<string>)

  /** The constructor: omitted fields default to nickname `''`, jersey number
      `''`, status `'on_bench'` and position `null`. */
  function NewPlayer(init: PlayerInit): (p: Player)
    ensures p.id == init.id && p.firstName == init.firstName && p.lastName == init.lastName
    ensures p.position == init.position
    ensures p.nickname == (if init.nickname.Some? then init.nickname.value else "")
    ensures p.jerseyNumber == (if init.jerseyNumber.Some? then init.jerseyNumber.value else "")
    ensures p.status == (if init.status.Some? then init.status.value else ON_BENCH)
  {
    Player(init.id, init.firstName, init.lastName,
           init.nickname.GetOr(""), init.jerseyNumber.GetOr(""),
           init.status.GetOr(ON_BENCH), init.position)
  }

  /** A freshly constructed player with only identity fields given sits on
      the bench with no position. */
  lemma DefaultPlayerIsBenched(id: string, first: string, last: string)
    ensures var p := NewPlayer(PlayerInit(id, first, last, None, None, None, None));
            IsOnBench(p) && !IsOnField(p) && p.nickname == "" && p.jerseyNumber == ""
  {
  }

  /** The text of `` `${s[0]}` ``: the first character, or `"undefined"` when
      `s` is empty (indexing past the end of a string yields `undefined`). */
  function FirstCharText(s: string): (r: string)
    ensures |s| > 0 ==> r == [s[0]]
    ensures |s| == 0 ==> r == "undefined"
  {
    if |s| > 0 then [s[0]] else "undefined"
  }

  /** `player.getDisplayName(format)`; the caller's default format is `'full'`. */
  function GetDisplayName(p: Player, format: string): (r: string)
    ensures format == "nickname" && p.nickname != "" ==> r == p.nickname
    ensures format == "last" && |p.firstName| > 0
            ==> r == p.lastName + ", " + [p.firstName[0]] + "."
    ensures format == "last" && |p.firstName| == 0 ==> r == p.lastName + ", undefined."
    ensures format != "last" && !(format == "nickname" && p.nickname != "")
            ==> r == p.firstName + " " + p.lastName
  {
    if format == "nickname" && p.nickname != "" then p.nickname
    else if format == "last" then p.lastName + ", " + FirstCharText(p.firstName) + "."
    else p.firstName + " " + p.lastName
  }

  /** `isOnField()`: the status says so AND a position is set. */
  predicate IsOnField(p: Player)
    ensures IsOnField(p) ==> p.status != ON_BENCH
    ensures p.position.None? ==> !IsOnField(p)
  {
    p.status == ON_FIELD && p.position.Some?
  }

  /** `isOnBench()`: the status alone decides, whatever the position. */
  predicate IsOnBench(p: Player)
    ensures IsOnBench(p) ==> !IsOnField(p)
    ensures p.status == ON_BENCH && p.position.Some? ==> IsOnBench(p)
  {
    p.status == ON_BENCH
  }

  /** No player is both on the field and on the bench. */
  lemma FieldAndBenchExclusive(p: Player)
    ensures !(IsOnField(p) && IsOnBench(p))
  {
  }

  /** The two predicates are not complementary: a player whose status is
      `'on_field'` but whose position is `null` is neither. */
  lemma FieldAndBenchNotExhaustive()
    ensures exists p: Player :: !IsOnField(p) && !IsOnBench(p)
  {
    var w := Player("p", "A", "B", "", "", ON_FIELD, None);
    assert !IsOnField(w) && !IsOnBench(w);
  }

  /** `assignToPosition(positionName)`: sets the position and the field
      status; any further argument (a slot index) is ignored. */
  function AssignToPosition(p: Player, pos: Option<string>): (r: Player)
    ensures r.position == pos && r.status == ON_FIELD
    ensures r.(position := p.position, status := p.status) == p
    ensures pos.Some? <==> IsOnField(r)
    ensures !IsOnBench(r)
  {
    p.(position := pos, status := ON_FIELD)
  }

  /** `moveToBench()`: clears the position and sets the bench status. */
  function MoveToBench(p: Player): (r: Player)
    ensures r.position.None? && r.status == ON_BENCH
    ensures r.(position := p.position, status := p.status) == p
    ensures IsOnBench(r) && !IsOnField(r)
  {
    p.(position := None, status := ON_BENCH)
  }

  /** Benching twice is benching once. */
  lemma MoveToBenchIdempotent(p: Player)
    ensures MoveToBench(MoveToBench(p)) == MoveToBench(p)
  {
  }

  /** Benching before an assignment has no effect on the result. */
  lemma BenchThenAssign(p: Player, pos: Option<string>)
    ensures AssignToPosition(MoveToBench(p), pos) == AssignToPosition(p, pos)
  {
  }

  /** The plain object `toJSON()` produces: exactly the seven fields. */
  datatype PlayerJson = PlayerJson(
    id: string,
    firstName: string,
    lastName: string,
    nickname: string,
    jerseyNumber: string,
    status: string,
    position: Option<string>)

  /** `toJSON()`. */
  function ToJson(p: Player): (j: PlayerJson)
    ensures j.id == p.id && j.firstName == p.firstName && j.lastName == p.lastName
    ensures j.nickname == p.nickname && j.jerseyNumber == p.jerseyNumber
    ensures j.status == p.status && j.position == p.position
  {
    PlayerJson(p.id, p.firstName, p.lastName, p.nickname, p.jerseyNumber, p.status, p.position)
  }

  /** `Player.fromJSON(data)`, which is `new Player(data)`: every key of a
      serialized player is present, so no default applies. */
  function FromJson(j: PlayerJson): (p: Player)
    ensures ToJson(p) == j
  {
    NewPlayer(PlayerInit(j.id, j.firstName, j.lastName,
                         Some(j.nickname), Some(j.jerseyNumber), Some(j.status), j.position))
  }

  /** Deserializing a serialized player gives back the same player on all
      seven fields. */
  lemma JsonRoundTrip(p: Player)
    ensures FromJson(ToJson(p)) == p
  {
  }

  /** Serializing a deserialized record gives back the same record. */
  lemma JsonRoundTripRecord(j: PlayerJson)
    ensures ToJson(FromJson(j)) == j
  {
  }

  /** The `updates` object given to `updatePlayer`: `None` means the key is
      absent. For `position`, `Some(None)` is an explicit `null`. */
  datatype PlayerUpdate = PlayerUpdate(
    id: Option<string>,
    firstName: Option<string>,
    lastName: Option<string>,
    nickname: Option<string>,
    jerseyNumber: Option<string>,
    status: Option<string>,
    position: Option<Option<string>>)

  /** An update object with no keys. */
  const NoUpdate := PlayerUpdate(None, None, None, None, None, None, None)

  /** `new Player({ ...current, ...updates })`: every key present in
      `updates` overrides the current value; every other field is kept. */
  function Merge(p: Player, u: PlayerUpdate): (r: Player)
    ensures r.id == (if u.id.Some? then u.id.value else p.id)
    ensures r.firstName == (if u.firstName.Some? then u.firstName.value else p.firstName)
    ensures r.lastName == (if u.lastName.Some? then u.lastName.value else p.lastName)
    ensures r.nickname == (if u.nickname.Some? then u.nickname.value else p.nickname)
    ensures r.jerseyNumber == (if u.jerseyNumber.Some? then u.jerseyNumber.value else p.jerseyNumber)
    ensures r.status == (if u.status.Some? then u.status.value else p.status)
    ensures r.position == (if u.position.Some? then u.position.value else p.position)
  {
    NewPlayer(PlayerInit(
      u.id.GetOr(p.id), u.firstName.GetOr(p.firstName), u.lastName.GetOr(p.lastName),
      Some(u.nickname.GetOr(p.nickname)), Some(u.jerseyNumber.GetOr(p.jerseyNumber)),
      Some(u.status.GetOr(p.status)), u.position.GetOr(p.position)))
  }

  /** An empty update changes nothing. */
  lemma MergeNothing(p: Player)
    ensures Merge(p, NoUpdate) == p
  {
  }
}

=== FILE: seqs.dfy ===
/** Generic sequence helpers standing for the `Array.prototype` methods the
    roster code relies on: `filter` and `findIndex`. */
module Seqs {
  import opened Wrappers

  /** `s.filter(p)`: the elements satisfying `p`, in their original order.
      Being a subsequence of `s` made of `p`-elements, as many as `s` holds,
      determines the result: no element is dropped, repeated ones included. */
  function Filter<T(==)>(s: seq<T>, p: T -> bool): (r: seq<T>)
    ensures |r| <= |s|
    ensures |r| == Count(s, p)
    ensures forall i :: 0 <= i < |r| ==> p(r[i]) && r[i] in s
    ensures forall i :: 0 <= i < |s| && p(s[i]) ==> s[i] in r
    ensures IsSubsequence(r, s)
  {
    if |s| == 0 then []
    else if p(s[0]) then [s[0]] + Filter(s[1..], p)
    else Filter(s[1..], p)
  }

  /** `r` can be obtained from `s` by deleting elements, order kept. */
  predicate IsSubsequence<T(==)>(r: seq<T>, s: seq<T>)
  {
    if |r| == 0 then true
    else if |s| == 0 then false
    else if r[0] == s[0] then IsSubsequence(r[1..], s[1..])
    else IsSubsequence(r, s[1..])
  }

  /** Number of elements of `s` that satisfy `p`. */
  function Count<T>(s: seq<T>, p: T -> bool): nat
  {
    if |s| == 0 then 0
    else (if p(s[0]) then 1 else 0) + Count(s[1..], p)
  }

  /** Two predicates that never hold together select at most `|s|` elements between them. */
  lemma {:induction false} DisjointFiltersFit<T>(s: seq<T>, p: T -> bool, q: T -> bool)
    requires forall i :: 0 <= i < |s| ==> !(p(s[i]) && q(s[i]))
    ensures |Filter(s, p)| + |Filter(s, q)| <= |s|
  {
    if |s| > 0 {
      DisjointFiltersFit(s[1..], p, q);
    }
  }

  /** `s.findIndex(p)`: the first index whose element satisfies `p`, if any. */
  function FirstIndex<T>(s: seq<T>, p: T -> bool): (r: Option<nat>)
    ensures r.Some? ==> r.value < |s| && p(s[r.value])
                        && forall j :: 0 <= j < r.value ==> !p(s[j])
    ensures r.None? ==> forall j :: 0 <= j < |s| ==> !p(s[j])
  {
    if |s| == 0 then None
    else if p(s[0]) then Some(0)
    else match FirstIndex(s[1..], p)
      case None => None
      case Some(i) => Some(i + 1)
  }

  /** `s` with the element at `i` deleted (`[...s.slice(0, i), ...s.slice(i + 1)]`). */
  function RemoveAt<T>(s: seq<T>, i: nat): (r: seq<T>)
    requires i < |s|
    ensures |r| == |s| - 1
    ensures forall j :: 0 <= j < i ==> r[j] == s[j]
    ensures forall j :: i <= j < |r| ==> r[j] == s[j + 1]
  {
    s[..i] + s[i + 1..]
  }

  /** No key appears twice in an association list. */
  predicate DistinctKeys<V>(ps: seq<(string, V)>)
  {
    forall i, j :: 0 <= i < j < |ps| ==> ps[i].0 != ps[j].0
  }

  /** `obj[key]` on a plain object whose own entries, in insertion order,
      are `ps`: the value of the first entry with that key, or `undefined`. */
  function LookupKey<V>(ps: seq<(string, V)>, key: string): (r: Option<V>)
    ensures r.None? <==> forall i :: 0 <= i < |ps| ==> ps[i].0 != key
    ensures r.Some? ==> exists i :: 0 <= i < |ps| && ps[i].0 == key && ps[i].1 == r.value
  {
    if |ps| == 0 then None
    else if ps[0].0 == key then Some(ps[0].1)
    else LookupKey(ps[1..], key)
  }

  /** The lookup returns the value of the first entry with the key. */
  lemma {:induction false} LookupFirst<V>(ps: seq<(string, V)>, key: string, i: nat)
    requires i < |ps| && ps[i].0 == key
    requires forall j :: 0 <= j < i ==> ps[j].0 != key
    ensures LookupKey(ps, key) == Some(ps[i].1)
  {
    if i > 0 {
      assert ps[1..][i - 1] == ps[i];
      assert forall j :: 0 <= j < i - 1 ==> ps[1..][j] == ps[j + 1];
      LookupFirst(ps[1..], key, i - 1);
    }
  }

  /** With distinct keys, looking up a stored key finds its own value. */
  lemma LookupStored<V>(ps: seq<(string, V)>, i: nat)
    requires DistinctKeys(ps)
    requires i < |ps|
    ensures LookupKey(ps, ps[i].0) == Some(ps[i].1)
  {
    LookupFirst(ps, ps[i].0, i);
  }
}

=== FILE: sports.dfy ===
/** The sport and position records of `src/lib/models/Sport.js`. A sport
    has an inclusive range of team sizes, an ordered list of positions, and
    its formations stored under keys of the form `"NvN"`. */
module Sports {
  import opened Wrappers
  import Seqs
  import Numerals
  import opened Formations

  /** A catalog position. `abbr` and `color` are display strings only;
      `defaultCount` is a display default, not a capacity. */
  datatype Position = Position(name: string, abbr: string, color: string, defaultCount: int)

  datatype Sport = Sport(
    id: string,
    name: string,
    minPlayers: int,
    maxPlayers: int,
    positions: seq<Position>,
    formations: seq<(string, seq<Formation>)>)

  /** `isValidTeamSize(teamSize)`: within the inclusive range, that is, at
      index `teamSize - min` of the `max - min + 1` available sizes. */
  predicate IsValidTeamSize(s: Sport, teamSize: int)
    ensures IsValidTeamSize(s, teamSize) <==> 0 <= teamSize - s.minPlayers < s.maxPlayers - s.minPlayers + 1
    ensures IsValidTeamSize(s, teamSize) ==> s.minPlayers <= s.maxPlayers
  {
    s.minPlayers <= teamSize <= s.maxPlayers
  }

  /** `getAvailableTeamSizes()`: `Array.from({ length: max - min + 1 }, (_, i) => min + i)`.
      A negative length is clamped to 0, so an inverted range gives `[]`. */
  method GetAvailableTeamSizes(s: Sport) returns (sizes: seq<int>)
    ensures |sizes| == if s.maxPlayers < s.minPlayers then 0 else s.maxPlayers - s.minPlayers + 1
    ensures forall i :: 0 <= i < |sizes| ==> sizes[i] == s.minPlayers + i
    ensures forall n :: n in sizes <==> IsValidTeamSize(s, n)
  {
    var length := s.maxPlayers - s.minPlayers + 1;
    if length < 0 {
      length := 0;
    }
    sizes := [];
    var i := 0;
    while i < length
      invariant 0 <= i <= length
      invariant |sizes| == i
      invariant forall k :: 0 <= k < i ==> sizes[k] == s.minPlayers + k
    {
      sizes := sizes + [s.minPlayers + i];
      i := i + 1;
    }
    forall n | IsValidTeamSize(s, n) ensures n in sizes {
      assert sizes[n - s.minPlayers] == n;
    }
  }

  /** The key `${n}v${n}`: a `v` between two copies of the size's decimal
      text, and that text reads back as the size. */
  function SizeKey(teamSize: int): (key: string)
    ensures |key| % 2 == 1 && key[|key| / 2] == 'v'
    ensures key[..|key| / 2] == key[|key| / 2 + 1..]
    ensures var half := key[..|key| / 2];
            && |half| > 0
            && (forall i :: 0 <= i < |half| ==> Numerals.IsDigit(half[i]) || half[i] == '-')
            && (forall i :: 1 <= i < |half| ==> Numerals.IsDigit(half[i]))
            && Numerals.ParseInt(half) == teamSize
  {
    var d := Numerals.IntToString(teamSize);
    Numerals.IntRoundTrip(teamSize);
    assert (d + "v" + d)[..|d|] == d;
    assert (d + "v" + d)[|d| + 1..] == d;
    d + "v" + d
  }

  /** Two team sizes never share a key, so a size selects at most one list. */
  lemma SizeKeyInjective(n: int, m: int)
    requires SizeKey(n) == SizeKey(m)
    ensures n == m
  {
    var a, b := Numerals.IntToString(n), Numerals.IntToString(m);
    // Neither text contains a 'v', so the first 'v' of the key sits at the same index.
    assert |a| == |b|;
    assert a == SizeKey(n)[..|a|] && b == SizeKey(m)[..|b|];
    Numerals.IntToStringInjective(n, m);
  }

  /** `getFormationsForTeamSize(teamSize)`: the list stored under the key,
      or `[]` when the key is absent. */
  function GetFormationsForTeamSize(s: Sport, teamSize: int): (r: seq<Formation>)
    ensures (forall i :: 0 <= i < |s.formations| ==> s.formations[i].0 != SizeKey(teamSize)) ==> r == []
    ensures forall i :: 0 <= i < |s.formations| && s.formations[i].0 == SizeKey(teamSize)
                        && (forall j :: 0 <= j < i ==> s.formations[j].0 != SizeKey(teamSize))
                        ==> r == s.formations[i].1
  {
    forall i | 0 <= i < |s.formations| && s.formations[i].0 == SizeKey(teamSize)
               && (forall j :: 0 <= j < i ==> s.formations[j].0 != SizeKey(teamSize)) {
      Seqs.LookupFirst(s.formations, SizeKey(teamSize), i);
    }
    Seqs.LookupKey(s.formations, SizeKey(teamSize)).GetOr([])
  }

  /** `getPosition(name)`: the first position with that name, or `undefined`. */
  function GetPosition(s: Sport, name: string): (r: Option<Position>)
    ensures r.Some? ==> r.value.name == name
                        && exists i :: 0 <= i < |s.positions| && s.positions[i] == r.value
                                       && forall j :: 0 <= j < i ==> s.positions[j].name != name
    ensures r.None? <==> forall i :: 0 <= i < |s.positions| ==> s.positions[i].name != name
  {
    match Seqs.FirstIndex(s.positions, (p: Position) => p.name == name)
    case Some(i) => Some(s.positions[i])
    case None => None
  }
}

=== FILE: team_store.dfy ===
/** The team store of `src/lib/stores/teamStore.svelte.js`, as written, over
    the base player entity. The module-level reactive variables become an
    explicit `State`; each exported mutator becomes a function from the old
    state (and its arguments) to the new one.

    Three collaborators become parameters: the fresh id `generateId()`
    returns, the record `loadTeam()` returns, and the catalog sport the
    caller passes. After most changes the store replaces the team by
    `Team.fromJSON(team.toJSON())`; that is `Teams.Refresh`, whose data
    effect `Teams.RefreshKeepsDeclaredFields` states.

    The base `Player` has no `positionIndex`, so every slot argument is
    read as `undefined` or passed to `assignToPosition`, which ignores it.
    It also has no pending-position methods, so the four pending functions
    throw a `TypeError` as soon as they reach a player; they are modelled
    with a `Result`. `LineupEngine` gives their intended effect. */
module TeamStore {
  import opened Wrappers
  import Seqs
  import opened Players
  import opened Formations
  import opened Sports
  import Catalog
  import opened Teams

  /** The store's four variables. */
  datatype State = State(
    team: Option<Team>,
    sport: Option<Sport>,
    teamSize: int,
    formation: Option<Formation>)

  /** The state when the module loads. */
  const INITIAL: State := State(None, None, 11, None)

  /** An exception the store lets escape. */
  datatype Thrown = TypeError(message: string)

  /** The team name every new team starts with. */
  const DEFAULT_TEAM_NAME: string := "My Team"

  /** No team carries an undeclared property. Every state the store builds
      has this shape; only `setTeamDescription` adds a description, and its
      refresh removes it again. */
  predicate Normal(s: State)
  {
    s.team.None? || s.team.value.description.None?
  }

  /** Ids are unique in the roster. Fresh ids keep it on `addPlayer`, and
      the lineup operations never change an id; `updatePlayer` keeps it only
      when the update leaves the id alone or brings a fresh one (see
      `UpdateToExistingIdBreaksUniqueness`). */
  predicate UniqueRoster(s: State)
  {
    s.team.None? || UniqueIds(s.team.value.players)
  }

  /** Replaces the team by its refreshed copy. */
  function Commit(s: State, t: Team): (r: State)
    ensures r.team == Some(t.(description := None))
    ensures r.(team := s.team) == s
  {
    RefreshKeepsDeclaredFields(t);
    s.(team := Some(Refresh(t)))
  }

  /** `getFormationsForTeamSize(size)[0]`, `undefined`/`null` when the list
      is empty. */
  function FirstFormation(sport: Sport, size: int): (r: Option<Formation>)
    ensures r.None? <==> |GetFormationsForTeamSize(sport, size)| == 0
    ensures r.Some? ==> r.value == GetFormationsForTeamSize(sport, size)[0]
  {
    var fs := GetFormationsForTeamSize(sport, size);
    if |fs| > 0 then Some(fs[0]) else None
  }

  /** `restoreTeam()` given what `loadTeam()` returned: with saved data,
      rebuilds the team and takes sport, size and formation from it. */
  function RestoreTeam(s: State, saved: Option<TeamJson>): (r: (State, bool))
    ensures saved.None? ==> r == (s, false)
    ensures saved.Some? ==> r.1 && r.0.team == Some(Teams.FromJson(saved.value))
    ensures saved.Some? ==> && r.0.sport == Catalog.GetSportById(saved.value.sportId)
                            && r.0.teamSize == saved.value.teamSize
                            && r.0.formation == saved.value.activeFormation
    ensures saved.Some? ==> Normal(r.0)
  {
    match saved
    case None => (s, false)
    case Some(data) =>
      var team := Teams.FromJson(data);
      (State(Some(team), Catalog.GetSportById(team.sportId), team.teamSize, team.activeFormation), true)
  }

  /** `initializeTeam(sport, size)` with `generateId()` returning `freshId`:
      a new empty team with the size's first formation. The source's default
      argument `size = 11` is the call `InitializeTeam(s, sport, 11, freshId)`. */
  function InitializeTeam(s: State, sport: Sport, size: int, freshId: string): (r: State)
    ensures r.sport == Some(sport) && r.teamSize == size
    ensures r.formation == FirstFormation(sport, size)
    ensures r.team == Some(NewTeam(freshId, DEFAULT_TEAM_NAME, sport.id, size, [], r.formation))
    ensures Normal(r) && UniqueRoster(r)
  {
    var formation := FirstFormation(sport, size);
    State(Some(NewTeam(freshId, DEFAULT_TEAM_NAME, sport.id, size, [], formation)),
          Some(sport), size, formation)
  }

  /** `setSport(sport)`: selects the sport at its largest size; creates a
      team only when there is none, and never alters an existing team. */
  function SetSport(s: State, sport: Sport, freshId: string): (r: State)
    ensures r.sport == Some(sport) && r.teamSize == sport.maxPlayers
    ensures r.formation == FirstFormation(sport, sport.maxPlayers)
    ensures s.team.Some? ==> r.team == s.team
    ensures s.team.None? ==>
              r.team == Some(NewTeam(freshId, DEFAULT_TEAM_NAME, sport.id, sport.maxPlayers, [], r.formation))
    ensures Normal(s) ==> Normal(r)
    ensures UniqueRoster(s) ==> UniqueRoster(r)
  {
    var defaultSize := sport.maxPlayers;
    var formation := FirstFormation(sport, defaultSize);
    var team := if s.team.Some? then s.team
                else Some(NewTeam(freshId, DEFAULT_TEAM_NAME, sport.id, defaultSize, [], formation));
    State(team, Some(sport), defaultSize, formation)
  }

  /** `setTeamSize(size)`: sets the size, and the size's first formation
      (or none) only when a sport is selected. The team is not touched. */
  function SetTeamSize(s: State, size: int): (r: State)
    ensures r.teamSize == size && r.team == s.team && r.sport == s.sport
    ensures s.sport.Some? ==> r.formation == FirstFormation(s.sport.value, size)
    ensures s.sport.None? ==> r.formation == s.formation
  {
    var formation := if s.sport.Some? then FirstFormation(s.sport.value, size) else s.formation;
    s.(teamSize := size, formation := formation)
  }

  /** `setFormation(formation)`: sets the store's formation and the team's
      active formation, without a refresh. */
  function SetFormation(s: State, f: Option<Formation>): (r: State)
    ensures r.formation == f && r.sport == s.sport && r.teamSize == s.teamSize
    ensures s.team.None? ==> r.team.None?
    ensures s.team.Some? ==> r.team == Some(s.team.value.(activeFormation := f))
    ensures Normal(s) ==> Normal(r)
    ensures UniqueRoster(s) ==> UniqueRoster(r)
  {
    var team := if s.team.Some? then Some(s.team.value.(activeFormation := f)) else None;
    s.(formation := f, team := team)
  }

  /** `setTeamName(name)`. */
  function SetTeamName(s: State, name: string): (r: State)
    ensures s.team.None? ==> r == s
    ensures s.team.Some? ==> r == s.(team := Some(s.team.value.(name := name, description := None)))
  {
    if s.team.None? then s else Commit(s, s.team.value.(name := name))
  }

  /** `setTeamDescription(description)`: the description is set and then
      dropped by the refresh. */
  function SetTeamDescription(s: State, description: string): (r: State)
    ensures s.team.None? ==> r == s
    ensures s.team.Some? ==> r == s.(team := Some(s.team.value.(description := None)))
  {
    if s.team.None? then s else Commit(s, s.team.value.(description := Some(description)))
  }

  /** On every state the store builds, `setTeamDescription` changes nothing. */
  lemma SetTeamDescriptionHasNoEffect(s: State, description: string)
    requires Normal(s)
    ensures SetTeamDescription(s, description) == s
  {
  }

  /** `addPlayer(playerData)` with `generateId()` returning `freshId`: the
      fresh id replaces any id in the data. */
  function AddPlayer(s: State, data: PlayerInit, freshId: string): (r: State)
    ensures s.team.None? ==> r == s
    ensures s.team.Some? ==>
              var before := s.team.value.players;
              && r.team.Some?
              && r.team.value == s.team.value.(players := r.team.value.players, description := None)
              && r.team.value.players == before + [NewPlayer(data.(id := freshId))]
              && r.team.value.players[|before|].id == freshId
    ensures r.(team := s.team) == s
  {
    if s.team.None? then s
    else Commit(s, Teams.AddPlayer(s.team.value, NewPlayer(data.(id := freshId))))
  }

  /** A fresh id keeps the roster's ids unique. */
  lemma AddPlayerKeepsIdsUnique(s: State, data: PlayerInit, freshId: string)
    requires UniqueRoster(s)
    requires s.team.Some? ==> FindIndex(s.team.value.players, freshId).None?
    ensures UniqueRoster(AddPlayer(s, data, freshId))
  {
    if s.team.Some? {
      AddPlayerLookup(s.team.value, NewPlayer(data.(id := freshId)));
    }
  }

  /** `updatePlayer(id, updates)`: refreshes whether or not the id was found. */
  function UpdatePlayer(s: State, id: string, u: PlayerUpdate): (r: State)
    ensures s.team.None? ==> r == s
    ensures s.team.Some? ==> r == Commit(s, Teams.UpdatePlayer(s.team.value, id, u).0)
  {
    if s.team.None? then s else Commit(s, Teams.UpdatePlayer(s.team.value, id, u).0)
  }

  /** An update that keeps the id, or brings an id no player has, keeps ids
      unique. */
  lemma UpdatePlayerKeepsIdsUnique(s: State, id: string, u: PlayerUpdate)
    requires UniqueRoster(s)
    requires s.team.Some? && u.id.Some? ==>
               u.id.value == id || FindIndex(s.team.value.players, u.id.value).None?
    ensures UniqueRoster(UpdatePlayer(s, id, u))
  {
    if s.team.Some? && FindIndex(s.team.value.players, id).Some? {
      var ps := s.team.value.players;
      var k := FindIndex(ps, id).value;
      var qs := UpdatePlayer(s, id, u).team.value.players;
      assert qs == ps[k := Merge(ps[k], u)];
      forall i, j | 0 <= i < j < |qs| ensures qs[i].id != qs[j].id {
        if i != k && j != k {
          assert qs[i] == ps[i] && qs[j] == ps[j];
        }
      }
    }
  }

  /** `{ ...player, ...updates }` lets an update carry an id, and nothing
      checks it: renaming the second of two players to the first one's id
      leaves two players with the same id. */
  lemma UpdateToExistingIdBreaksUniqueness()
    ensures var a := NewPlayer(PlayerInit("a", "Ann", "Lee", None, None, None, None));
            var b := NewPlayer(PlayerInit("b", "Bo", "Kim", None, None, None, None));
            var s := State(Some(NewTeam("t", DEFAULT_TEAM_NAME, "soccer", 11, [a, b], None)), None, 11, None);
            UniqueRoster(s) && !UniqueRoster(UpdatePlayer(s, "b", NoUpdate.(id := Some("a"))))
  {
    var a := NewPlayer(PlayerInit("a", "Ann", "Lee", None, None, None, None));
    var b := NewPlayer(PlayerInit("b", "Bo", "Kim", None, None, None, None));
    var s := State(Some(NewTeam("t", DEFAULT_TEAM_NAME, "soccer", 11, [a, b], None)), None, 11, None);
    assert FindIndex([a, b], "b") == Some(1);
    var qs := UpdatePlayer(s, "b", NoUpdate.(id := Some("a"))).team.value.players;
    assert qs[0].id == qs[1].id;
  }

  /** `deletePlayer(id)`: refreshes whether or not the id was found. */
  function DeletePlayer(s: State, id: string): (r: State)
    ensures s.team.None? ==> r == s
    ensures s.team.Some? ==> r == Commit(s, RemovePlayer(s.team.value, id).0)
  {
    if s.team.None? then s else Commit(s, RemovePlayer(s.team.value, id).0)
  }

  /** With unique ids, a deleted id no longer resolves and the rest stay
      unique. */
  lemma DeletePlayerRemovesId(s: State, id: string)
    requires UniqueRoster(s) && s.team.Some?
    ensures GetPlayer(DeletePlayer(s, id).team.value, id).None?
    ensures UniqueRoster(DeletePlayer(s, id))
  {
    RemovePlayerLookup(s.team.value, id, id + "'");
  }

  /** The roster with player `i` replaced by `f` of itself. */
  function Apply(ps: seq<Player>, i: nat, p: Player): (r: seq<Player>)
    requires i < |ps|
    ensures |r| == |ps| && r[i] == p
    ensures forall j :: 0 <= j < |ps| && j != i ==> r[j] == ps[j]
  {
    ps[i := p]
  }

  /** Two rosters have the same ids, position by position. */
  predicate SameIds(a: seq<Player>, b: seq<Player>)
  {
    |a| == |b| && forall i :: 0 <= i < |a| ==> a[i].id == b[i].id
  }

  lemma SameIdsKeepUnique(a: seq<Player>, b: seq<Player>)
    requires SameIds(a, b) && UniqueIds(a)
    ensures UniqueIds(b)
  {
  }

  /** Rosters with the same ids resolve every id to the same index. */
  lemma {:induction false} SameIdsSameIndex(a: seq<Player>, b: seq<Player>, id: string)
    requires SameIds(a, b)
    ensures FindIndex(a, id) == FindIndex(b, id)
  {
    match FindIndex(a, id)
    case None =>
    case Some(k) =>
      assert b[k].id == id;
      assert forall j :: 0 <= j < k ==> b[j].id == a[j].id;
  }

  /** The player an id resolves to. */
  lemma GetPlayerAt(t: Team, id: string, k: nat)
    requires FindIndex(t.players, id) == Some(k)
    ensures GetPlayer(t, id) == Some(t.players[k])
  {
  }

  /** `assignPlayerToPosition(id, pos, slot)`: the slot is ignored; a
      missing id changes nothing, not even by a refresh. */
  function AssignPlayerToPosition(s: State, id: string, pos: Option<string>, slot: Option<int>): (r: State)
    ensures s.team.None? || FindIndex(s.team.value.players, id).None? ==> r == s
    ensures s.team.Some? && FindIndex(s.team.value.players, id).Some? ==>
              var ps := s.team.value.players;
              var k := FindIndex(ps, id).value;
              && r.team.Some?
              && r.team.value.players == ps[k := Players.AssignToPosition(ps[k], pos)]
              && r == s.(team := Some(s.team.value.(players := r.team.value.players, description := None)))
  {
    if s.team.None? then s
    else match FindIndex(s.team.value.players, id)
      case None => s
      case Some(k) =>
        var ps := s.team.value.players;
        Commit(s, s.team.value.(players := Apply(ps, k, Players.AssignToPosition(ps[k], pos))))
  }

  lemma AssignPlayerToPositionKeepsIdsUnique(s: State, id: string, pos: Option<string>, slot: Option<int>)
    requires UniqueRoster(s)
    ensures UniqueRoster(AssignPlayerToPosition(s, id, pos, slot))
  {
    if s.team.Some? && FindIndex(s.team.value.players, id).Some? {
      var ps := s.team.value.players;
      SameIdsKeepUnique(ps, AssignPlayerToPosition(s, id, pos, slot).team.value.players);
    }
  }

  /** `movePlayerToBench(id)`. */
  function MovePlayerToBench(s: State, id: string): (r: State)
    ensures s.team.None? || FindIndex(s.team.value.players, id).None? ==> r == s
    ensures s.team.Some? && FindIndex(s.team.value.players, id).Some? ==>
              var ps := s.team.value.players;
              var k := FindIndex(ps, id).value;
              && r.team.Some?
              && r.team.value.players == ps[k := Players.MoveToBench(ps[k])]
              && IsOnBench(r.team.value.players[k])
              && r == s.(team := Some(s.team.value.(players := r.team.value.players, description := None)))
  {
    if s.team.None? then s
    else match FindIndex(s.team.value.players, id)
      case None => s
      case Some(k) =>
        var ps := s.team.value.players;
        Commit(s, s.team.value.(players := Apply(ps, k, Players.MoveToBench(ps[k]))))
  }

  lemma MovePlayerToBenchKeepsIdsUnique(s: State, id: string)
    requires UniqueRoster(s)
    ensures UniqueRoster(MovePlayerToBench(s, id))
  {
    if s.team.Some? && FindIndex(s.team.value.players, id).Some? {
      var ps := s.team.value.players;
      SameIdsKeepUnique(ps, MovePlayerToBench(s, id).team.value.players);
    }
  }

  /** Both ids resolve in the team. */
  predicate BothResolve(s: State, a: string, b: string)
  {
    s.team.Some? && FindIndex(s.team.value.players, a).Some? && FindIndex(s.team.value.players, b).Some?
  }

  /** The roster after `substitutePlayers`: the outgoing player is benched,
      then the incoming player takes the position read before the benching. */
  function SubstituteRoster(ps: seq<Player>, out: nat, inc: nat): (r: seq<Player>)
    requires out < |ps| && inc < |ps|
    ensures SameIds(ps, r)
    ensures out != inc ==>
              && r[out] == Players.MoveToBench(ps[out])
              && r[inc] == Players.AssignToPosition(ps[inc], ps[out].position)
              && forall j :: 0 <= j < |ps| && j != out && j != inc ==> r[j] == ps[j]
    ensures out == inc ==> r == ps[out := Players.AssignToPosition(ps[out], ps[out].position)]
  {
    var position := ps[out].position;
    var benched := Apply(ps, out, Players.MoveToBench(ps[out]));
    Apply(benched, inc, Players.AssignToPosition(benched[inc], position))
  }

  /** `substitutePlayers(outId, inId, targetSlot)`: nothing happens unless
      both ids resolve; neither status is checked, and the slot is ignored. */
  function SubstitutePlayers(s: State, outId: string, inId: string, targetSlot: Option<int>): (r: State)
    ensures !BothResolve(s, outId, inId) ==> r == s
    ensures BothResolve(s, outId, inId) ==>
              var ps := s.team.value.players;
              var out := FindIndex(ps, outId).value;
              var inc := FindIndex(ps, inId).value;
              r == Commit(s, s.team.value.(players := SubstituteRoster(ps, out, inc)))
  {
    if !BothResolve(s, outId, inId) then s
    else
      var ps := s.team.value.players;
      var out := FindIndex(ps, outId).value;
      var inc := FindIndex(ps, inId).value;
      Commit(s, s.team.value.(players := SubstituteRoster(ps, out, inc)))
  }

  lemma SubstituteKeepsIdsUnique(s: State, outId: string, inId: string, targetSlot: Option<int>)
    requires UniqueRoster(s)
    ensures UniqueRoster(SubstitutePlayers(s, outId, inId, targetSlot))
  {
    if BothResolve(s, outId, inId) {
      var ps := s.team.value.players;
      SameIdsKeepUnique(ps, SubstituteRoster(ps, FindIndex(ps, outId).value, FindIndex(ps, inId).value));
    }
  }

  /** The scenario of a substitution: the outgoing field player ends benched
      with no position, and the incoming player ends on the field in the
      position the outgoing one held. */
  lemma SubstituteMovesThePosition(s: State, outId: string, inId: string, targetSlot: Option<int>)
    requires BothResolve(s, outId, inId) && outId != inId
    requires IsOnField(GetPlayer(s.team.value, outId).value)
    ensures var t := SubstitutePlayers(s, outId, inId, targetSlot).team.value;
            && GetPlayer(t, outId).value == Players.MoveToBench(GetPlayer(s.team.value, outId).value)
            && IsOnField(GetPlayer(t, inId).value)
            && GetPlayer(t, inId).value.position == GetPlayer(s.team.value, outId).value.position
  {
    var ps := s.team.value.players;
    var out, inc := FindIndex(ps, outId).value, FindIndex(ps, inId).value;
    var qs := SubstituteRoster(ps, out, inc);
    var t := SubstitutePlayers(s, outId, inId, targetSlot).team.value;
    assert t.players == qs;
    SameIdsSameIndex(ps, qs, outId);
    SameIdsSameIndex(ps, qs, inId);
    GetPlayerAt(s.team.value, outId, out);
    GetPlayerAt(t, outId, out);
    GetPlayerAt(t, inId, inc);
  }

  /** Because no status is checked, substituting from a player with no
      position leaves the incoming player with status `'on_field'` and no
      position: neither on the field nor on the bench. */
  lemma SubstituteFromNoPosition(s: State, outId: string, inId: string)
    requires BothResolve(s, outId, inId) && outId != inId
    requires GetPlayer(s.team.value, outId).value.position.None?
    ensures var t := SubstitutePlayers(s, outId, inId, None).team.value;
            var p := GetPlayer(t, inId).value;
            p.status == ON_FIELD && !IsOnField(p) && !IsOnBench(p)
  {
    var ps := s.team.value.players;
    var out, inc := FindIndex(ps, outId).value, FindIndex(ps, inId).value;
    var qs := SubstituteRoster(ps, out, inc);
    var t := SubstitutePlayers(s, outId, inId, None).team.value;
    assert t.players == qs;
    SameIdsSameIndex(ps, qs, inId);
    GetPlayerAt(s.team.value, outId, out);
    GetPlayerAt(t, inId, inc);
  }

  /** Both ids resolve to players on the field. */
  predicate SwapApplies(s: State, a: string, b: string)
  {
    && BothResolve(s, a, b)
    && IsOnField(s.team.value.players[FindIndex(s.team.value.players, a).value])
    && IsOnField(s.team.value.players[FindIndex(s.team.value.players, b).value])
  }

  /** The roster after `swapFieldPlayers`: player `i` takes `j`'s position,
      then `j` takes the position `i` held before. */
  function SwapRoster(ps: seq<Player>, i: nat, j: nat): (r: seq<Player>)
    requires i < |ps| && j < |ps|
    requires IsOnField(ps[i]) && IsOnField(ps[j])
    ensures SameIds(ps, r)
    ensures r[i] == ps[i].(position := ps[j].position)
    ensures r[j] == ps[j].(position := ps[i].position)
    ensures forall k :: 0 <= k < |ps| && k != i && k != j ==> r[k] == ps[k]
    ensures IsOnField(r[i]) && IsOnField(r[j])
  {
    var tempPosition := ps[i].position;
    var first := Apply(ps, i, Players.AssignToPosition(ps[i], ps[j].position));
    Apply(first, j, Players.AssignToPosition(first[j], tempPosition))
  }

  /** `swapFieldPlayers(a, b)`: exchanges the positions of two field players
      and touches nothing else; otherwise nothing happens. */
  function SwapFieldPlayers(s: State, a: string, b: string): (r: State)
    ensures !SwapApplies(s, a, b) ==> r == s
    ensures SwapApplies(s, a, b) ==>
              var ps := s.team.value.players;
              r == Commit(s, s.team.value.(players := SwapRoster(ps, FindIndex(ps, a).value,
                                                                     FindIndex(ps, b).value)))
  {
    if !SwapApplies(s, a, b) then s
    else
      var ps := s.team.value.players;
      Commit(s, s.team.value.(players := SwapRoster(ps, FindIndex(ps, a).value, FindIndex(ps, b).value)))
  }

  lemma SwapKeepsIdsUnique(s: State, a: string, b: string)
    requires UniqueRoster(s)
    ensures UniqueRoster(SwapFieldPlayers(s, a, b))
  {
    if SwapApplies(s, a, b) {
      var ps := s.team.value.players;
      SameIdsKeepUnique(ps, SwapRoster(ps, FindIndex(ps, a).value, FindIndex(ps, b).value));
    }
  }

  /** Swapping the same two players twice restores the state. */
  lemma SwapTwiceRestores(s: State, a: string, b: string)
    requires Normal(s)
    ensures SwapFieldPlayers(SwapFieldPlayers(s, a, b), a, b) == s
  {
    if SwapApplies(s, a, b) {
      var ps := s.team.value.players;
      var i, j := FindIndex(ps, a).value, FindIndex(ps, b).value;
      var s1 := SwapFieldPlayers(s, a, b);
      var qs := s1.team.value.players;
      assert qs == SwapRoster(ps, i, j);
      assert FindIndex(qs, a) == Some(i) && FindIndex(qs, b) == Some(j);
      assert SwapApplies(s1, a, b);
      assert SwapRoster(qs, i, j) == ps;
    }
  }

  /** `getPlayers()`: the roster, or `[]` without a team. */
  function GetPlayers(s: State): (r: seq<Player>)
    ensures s.team.None? ==> r == []
    ensures s.team.Some? ==> r == s.team.value.players
  {
    if s.team.Some? then s.team.value.players else []
  }

  /** `getFieldPlayers()`: the field players in roster order, or `[]`. */
  function GetFieldPlayers(s: State): (r: seq<Player>)
    ensures s.team.None? ==> r == []
    ensures s.team.Some? ==> r == Teams.GetFieldPlayers(s.team.value)
    ensures forall i :: 0 <= i < |r| ==> IsOnField(r[i]) && r[i] in GetPlayers(s)
    ensures forall i :: 0 <= i < |GetPlayers(s)| && IsOnField(GetPlayers(s)[i]) ==> GetPlayers(s)[i] in r
    ensures Seqs.IsSubsequence(r, GetPlayers(s)) && |r| == Seqs.Count(GetPlayers(s), IsOnField)
  {
    if s.team.Some? then Teams.GetFieldPlayers(s.team.value) else []
  }

  /** `getBenchPlayers()`: the bench players in roster order, or `[]`. */
  function GetBenchPlayers(s: State): (r: seq<Player>)
    ensures s.team.None? ==> r == []
    ensures s.team.Some? ==> r == Teams.GetBenchPlayers(s.team.value)
    ensures forall i :: 0 <= i < |r| ==> IsOnBench(r[i]) && r[i] in GetPlayers(s)
    ensures forall i :: 0 <= i < |GetPlayers(s)| && IsOnBench(GetPlayers(s)[i]) ==> GetPlayers(s)[i] in r
    ensures Seqs.IsSubsequence(r, GetPlayers(s)) && |r| == Seqs.Count(GetPlayers(s), IsOnBench)
  {
    if s.team.Some? then Teams.GetBenchPlayers(s.team.value) else []
  }

  /** `getFormationStatus()`: the status against the store's formation,
      which `setTeamSize` may have moved away from the team's own active
      formation; `{}` without a team or a formation. */
  method GetFormationStatus(s: State) returns (status: seq<(string, PositionStatus)>)
    ensures s.team.None? || s.formation.None? ==> status == []
    ensures s.team.Some? && s.formation.Some? ==>
              && |status| == |s.formation.value.positions|
              && forall k :: 0 <= k < |status| ==>
                   && status[k].0 == s.formation.value.positions[k].0
                   && status[k].1.current == CountAt(s.team.value, status[k].0)
                   && status[k].1.needed == s.formation.value.positions[k].1
                   && (status[k].1.isFull <==> status[k].1.current >= s.formation.value.positions[k].1)
                   && (status[k].1.hasSpace <==> status[k].1.current < s.formation.value.positions[k].1)
  {
    if s.team.None? || s.formation.None? {
      status := [];
    } else {
      status := Teams.GetFormationStatus(s.team.value, s.formation);
    }
  }

  /** `assignPlayerToPendingPosition(id, pos, slot)`: throws once the id
      resolves, since the base player has no such method. */
  function AssignPlayerToPendingPosition(s: State, id: string, pos: Option<string>, slot: Option<int>)
    : (r: Result<State, Thrown>)
    ensures r.Success? <==> s.team.None? || FindIndex(s.team.value.players, id).None?
    ensures r.Success? ==> r.value == s
    ensures r.Failure? ==> r.error.message == "player.assignToPendingPosition is not a function"
  {
    if s.team.None? || FindIndex(s.team.value.players, id).None? then Success(s)
    else Failure(TypeError("player.assignToPendingPosition is not a function"))
  }

  /** `applyPendingPositions()`: throws on the first player; an empty roster
      is only refreshed. */
  function ApplyPendingPositions(s: State): (r: Result<State, Thrown>)
    ensures r.Success? <==> s.team.None? || |s.team.value.players| == 0
    ensures s.team.None? ==> r == Success(s)
    ensures r.Success? && s.team.Some? ==> r.value == Commit(s, s.team.value)
    ensures r.Failure? ==> r.error.message == "player.applyPendingPosition is not a function"
  {
    if s.team.None? then Success(s)
    else if |s.team.value.players| == 0 then Success(Commit(s, s.team.value))
    else Failure(TypeError("player.applyPendingPosition is not a function"))
  }

  /** `clearPendingPositions()`: throws on the first player. */
  function ClearPendingPositions(s: State): (r: Result<State, Thrown>)
    ensures r.Success? <==> s.team.None? || |s.team.value.players| == 0
    ensures s.team.None? ==> r == Success(s)
    ensures r.Success? && s.team.Some? ==> r.value == Commit(s, s.team.value)
    ensures r.Failure? ==> r.error.message == "player.clearPendingPosition is not a function"
  {
    if s.team.None? then Success(s)
    else if |s.team.value.players| == 0 then Success(Commit(s, s.team.value))
    else Failure(TypeError("player.clearPendingPosition is not a function"))
  }

  /** `initializePendingFromActive()`: the first player is staged or
      cleared, and either call throws. */
  function InitializePendingFromActive(s: State): (r: Result<State, Thrown>)
    ensures r.Success? <==> s.team.None? || |s.team.value.players| == 0
    ensures s.team.None? ==> r == Success(s)
    ensures r.Success? && s.team.Some? ==> r.value == Commit(s, s.team.value)
    ensures r.Failure? ==>
              r.error.message == if IsOnField(s.team.value.players[0])
                                 then "player.assignToPendingPosition is not a function"
                                 else "player.clearPendingPosition is not a function"
  {
    if s.team.None? then Success(s)
    else if |s.team.value.players| == 0 then Success(Commit(s, s.team.value))
    else if IsOnField(s.team.value.players[0]) then
      Failure(TypeError("player.assignToPendingPosition is not a function"))
    else
      Failure(TypeError("player.clearPendingPosition is not a function"))
  }
}

=== FILE: teams.dfy ===
/** The team aggregate of `src/lib/models/Team.js`: identity, sport, size,
    an ordered player list and the active formation, with the list
    operations and the two formation evaluators. */
module Teams {
  import opened Wrappers
  import Seqs
  import opened Players
  import opened Formations

  /** A team. `description` stands for an ad-hoc property a caller may set
      on the object; the class never declares it, the constructor never
      sets it (`None`) and `toJSON()` does not copy it. */
  datatype Team = Team(
    id: string,
    name: string,
    sportId: string,
    teamSize: int,
    players: seq<Player>,
    activeFormation: Option<Formation>,
    description: Option<string>)

  /** `new Team({ id, name, sportId, teamSize, players, activeFormation })`. */
  function NewTeam(id: string, name: string, sportId: string, teamSize: int,
                   players: seq<Player>, activeFormation: Option<Formation>): (t: Team)
    ensures t.id == id && t.name == name && t.sportId == sportId && t.teamSize == teamSize
    ensures t.description.None?
    ensures t.players == players && t.activeFormation == activeFormation
  {
    Team(id, name, sportId, teamSize, players, activeFormation, None)
  }

  /** All player ids are pairwise distinct. `addPlayer` does not check it;
      the store keeps it by generating fresh ids. */
  predicate UniqueIds(players: seq<Player>)
  {
    forall i, j :: 0 <= i < j < |players| ==> players[i].id != players[j].id
  }

  /** `players.findIndex(p => p.id === id)`. */
  function FindIndex(players: seq<Player>, id: string): (r: Option<nat>)
    ensures r.Some? ==> r.value < |players| && players[r.value].id == id
                        && forall j :: 0 <= j < r.value ==> players[j].id != id
    ensures r.None? <==> forall j :: 0 <= j < |players| ==> players[j].id != id
  {
    Seqs.FirstIndex(players, (p: Player) => p.id == id)
  }

  /** `addPlayer(player)`: appends, with no duplicate-id check. */
  function AddPlayer(t: Team, p: Player): (r: Team)
    ensures |r.players| == |t.players| + 1
    ensures r.players[..|t.players|] == t.players && r.players[|t.players|] == p
    ensures r.(players := t.players) == t
  {
    t.(players := t.players + [p])
  }

  /** Appending a player under a fresh id keeps ids unique and makes the
      player findable; a duplicate id stays hidden behind the earlier one. */
  lemma AddPlayerLookup(t: Team, p: Player)
    ensures FindIndex(t.players, p.id).None? ==>
              GetPlayer(AddPlayer(t, p), p.id) == Some(p)
              && (UniqueIds(t.players) ==> UniqueIds(AddPlayer(t, p).players))
    ensures FindIndex(t.players, p.id).Some? ==>
              GetPlayer(AddPlayer(t, p), p.id) == GetPlayer(t, p.id)
  {
    var ps := AddPlayer(t, p).players;
    match FindIndex(t.players, p.id)
    case None =>
      assert FindIndex(ps, p.id) == Some(|t.players|);
    case Some(i) =>
      assert FindIndex(ps, p.id) == Some(i);
  }

  /** `removePlayer(id)`: deletes the first player with the id and reports
      whether one was found. */
  function RemovePlayer(t: Team, id: string): (r: (Team, bool))
    ensures r.0.(players := t.players) == t
    ensures r.1 <==> exists j :: 0 <= j < |t.players| && t.players[j].id == id
    ensures !r.1 ==> r.0 == t
    ensures r.1 ==> exists i :: 0 <= i < |t.players| && t.players[i].id == id
                               && (forall j :: 0 <= j < i ==> t.players[j].id != id)
                               && r.0.players == t.players[..i] + t.players[i + 1..]
  {
    match FindIndex(t.players, id)
    case None => (t, false)
    case Some(i) => (t.(players := Seqs.RemoveAt(t.players, i)), true)
  }

  /** With unique ids, a removed id can no longer be found, ids stay
      unique, and every other player is still found. */
  lemma RemovePlayerLookup(t: Team, id: string, other: string)
    requires UniqueIds(t.players)
    requires other != id
    ensures GetPlayer(RemovePlayer(t, id).0, id).None?
    ensures UniqueIds(RemovePlayer(t, id).0.players)
    ensures GetPlayer(RemovePlayer(t, id).0, other) == GetPlayer(t, other)
  {
    if FindIndex(t.players, id).Some? {
      var i := FindIndex(t.players, id).value;
      var ps := RemovePlayer(t, id).0.players;
      assert ps == Seqs.RemoveAt(t.players, i);
      RemoveAtKeepsOthers(t.players, i, other);
    }
  }

  /** Deleting index `i` of a roster with unique ids deletes that id, keeps
      the ids unique, and shifts the lookup of any other id accordingly. */
  lemma RemoveAtKeepsOthers(ps: seq<Player>, i: nat, other: string)
    requires UniqueIds(ps) && i < |ps| && other != ps[i].id
    ensures FindIndex(Seqs.RemoveAt(ps, i), ps[i].id).None?
    ensures UniqueIds(Seqs.RemoveAt(ps, i))
    ensures match FindIndex(ps, other)
            case None => FindIndex(Seqs.RemoveAt(ps, i), other).None?
            case Some(k) => FindIndex(Seqs.RemoveAt(ps, i), other) == Some(if k < i then k else k - 1)
  {
    var qs := Seqs.RemoveAt(ps, i);
    assert forall j :: 0 <= j < |qs| ==> qs[j] == ps[if j < i then j else j + 1];
    match FindIndex(ps, other)
    case None =>
    case Some(k) =>
      var x := if k < i then k else k - 1;
      assert qs[x] == ps[k];
  }

  /** `getPlayer(id)`: the first player with the id, or `undefined`. */
  function GetPlayer(t: Team, id: string): (r: Option<Player>)
    ensures r.Some? ==> r.value.id == id && r.value in t.players
    ensures r.None? <==> forall j :: 0 <= j < |t.players| ==> t.players[j].id != id
    ensures forall j :: 0 <= j < |t.players| && t.players[j].id == id
                        && (forall k :: 0 <= k < j ==> t.players[k].id != id)
                        ==> r == Some(t.players[j])
  {
    match FindIndex(t.players, id)
    case None => None
    case Some(i) =>
      assert forall j :: (0 <= j < |t.players| && t.players[j].id == id
                          && forall k :: 0 <= k < j ==> t.players[k].id != id) ==> j == i;
      Some(t.players[i])
  }

  /** `updatePlayer(id, updates)`: replaces the first player with the id by
      the merge of its fields with `updates`, and reports whether one was
      found. */
  function UpdatePlayer(t: Team, id: string, u: PlayerUpdate): (r: (Team, bool))
    ensures r.0.(players := t.players) == t
    ensures |r.0.players| == |t.players|
    ensures r.1 <==> GetPlayer(t, id).Some?
    ensures !r.1 ==> r.0 == t
    ensures r.1 ==> var i := FindIndex(t.players, id).value;
                    && r.0.players[i] == Merge(t.players[i], u)
                    && forall j :: 0 <= j < |t.players| && j != i ==> r.0.players[j] == t.players[j]
  {
    match FindIndex(t.players, id)
    case None => (t, false)
    case Some(i) => (t.(players := t.players[i := Merge(t.players[i], u)]), true)
  }

  /** An update that does not touch the id keeps ids unique, and the updated
      player is found under its id with the merged fields. */
  lemma UpdatePlayerLookup(t: Team, id: string, u: PlayerUpdate)
    requires UniqueIds(t.players)
    requires u.id.None?
    requires GetPlayer(t, id).Some?
    ensures UniqueIds(UpdatePlayer(t, id, u).0.players)
    ensures GetPlayer(UpdatePlayer(t, id, u).0, id) == Some(Merge(GetPlayer(t, id).value, u))
  {
    var i := FindIndex(t.players, id).value;
    var ps := UpdatePlayer(t, id, u).0.players;
    assert forall j :: 0 <= j < |ps| ==> ps[j].id == t.players[j].id;
    assert FindIndex(ps, id) == Some(i);
  }

  /** `getFieldPlayers()`. */
  function GetFieldPlayers(t: Team): (r: seq<Player>)
    ensures forall i :: 0 <= i < |r| ==> IsOnField(r[i]) && r[i] in t.players
    ensures forall i :: 0 <= i < |t.players| && IsOnField(t.players[i]) ==> t.players[i] in r
    ensures Seqs.IsSubsequence(r, t.players)
    ensures |r| == Seqs.Count(t.players, IsOnField)
  {
    Seqs.Filter(t.players, IsOnField)
  }

  /** `getBenchPlayers()`. */
  function GetBenchPlayers(t: Team): (r: seq<Player>)
    ensures forall i :: 0 <= i < |r| ==> IsOnBench(r[i]) && r[i] in t.players
    ensures forall i :: 0 <= i < |t.players| && IsOnBench(t.players[i]) ==> t.players[i] in r
    ensures Seqs.IsSubsequence(r, t.players)
    ensures |r| == Seqs.Count(t.players, IsOnBench)
  {
    Seqs.Filter(t.players, IsOnBench)
  }

  /** The field and bench lists share no player and together hold at most
      the whole roster; a player with status `'on_field'` and no position is
      in neither. */
  lemma FieldAndBenchDisjoint(t: Team)
    ensures forall i, j :: 0 <= i < |GetFieldPlayers(t)| && 0 <= j < |GetBenchPlayers(t)|
                           ==> GetFieldPlayers(t)[i] != GetBenchPlayers(t)[j]
    ensures |GetFieldPlayers(t)| + |GetBenchPlayers(t)| <= |t.players|
  {
    Seqs.DisjointFiltersFit(t.players, IsOnField, IsOnBench);
  }

  /** `p.position === name`. */
  predicate AtPosition(p: Player, name: string)
  {
    p.position == Some(name)
  }

  /** `getPlayersByPosition(name)`: filters on the position alone, whatever
      the status. */
  function GetPlayersByPosition(t: Team, name: string): (r: seq<Player>)
    ensures forall i :: 0 <= i < |r| ==> r[i].position == Some(name) && r[i] in t.players
    ensures forall i :: 0 <= i < |t.players| && t.players[i].position == Some(name)
                        ==> t.players[i] in r
    ensures Seqs.IsSubsequence(r, t.players)
    ensures |r| == Seqs.Count(t.players, AtPositionTest(name))
  {
    Seqs.Filter(t.players, AtPositionTest(name))
  }

  /** The test `getPlayersByPosition(name)` filters with. */
  function AtPositionTest(name: string): Player -> bool
  {
    (p: Player) => AtPosition(p, name)
  }

  /** Every player whose position is `name` is counted there whatever the
      status, so a benched player that still carries a position is counted
      at it while missing from the field list; and the players at a
      position never outnumber the roster. */
  lemma PositionFilterIgnoresStatus(t: Team, name: string)
    ensures forall i :: 0 <= i < |t.players| && t.players[i].position == Some(name)
                        ==> t.players[i] in GetPlayersByPosition(t, name)
    ensures forall i :: 0 <= i < |t.players| && t.players[i].position == Some(name)
                        && IsOnBench(t.players[i])
                        ==> t.players[i] in GetPlayersByPosition(t, name)
                            && t.players[i] !in GetFieldPlayers(t)
    ensures CountAt(t, name) <= |t.players|
  {
  }

  /** The players at `name`, counted. */
  function CountAt(t: Team, name: string): nat
  {
    |GetPlayersByPosition(t, name)|
  }

  /** Every requirement of `f` is met exactly, neither more nor fewer. */
  predicate Satisfies(t: Team, f: Formation)
  {
    forall k :: 0 <= k < |f.positions| ==> CountAt(t, f.positions[k].0) == f.positions[k].1
  }

  /** `meetsFormationRequirements(formation)`: false without a formation;
      otherwise stops at the first position whose count differs. */
  method MeetsFormationRequirements(t: Team, formation: Option<Formation>) returns (r: bool)
    ensures r <==> formation.Some? && Satisfies(t, formation.value)
  {
    if formation.None? {
      return false;
    }
    var ps := formation.value.positions;
    var i := 0;
    while i < |ps|
      invariant 0 <= i <= |ps|
      invariant forall k :: 0 <= k < i ==> CountAt(t, ps[k].0) == ps[k].1
    {
      var playersInPosition := |GetPlayersByPosition(t, ps[i].0)|;
      if playersInPosition != ps[i].1 {
        return false;
      }
      i := i + 1;
    }
    return true;
  }

  /** One entry of `getFormationStatus`. */
  datatype PositionStatus = PositionStatus(current: nat, needed: int, isFull: bool, hasSpace: bool)

  /** `getFormationStatus(formation)`: one entry per formation key, in key
      order; `{}` without a formation. */
  method GetFormationStatus(t: Team, formation: Option<Formation>)
    returns (status: seq<(string, PositionStatus)>)
    ensures formation.None? ==> status == []
    ensures formation.Some? ==> |status| == |formation.value.positions|
    ensures formation.Some? ==>
              forall k :: 0 <= k < |status| ==>
                var (name, needed) := formation.value.positions[k];
                && status[k].0 == name
                && status[k].1.current == CountAt(t, name)
                && status[k].1.needed == needed
                && (status[k].1.isFull <==> CountAt(t, name) >= needed)
                && (status[k].1.hasSpace <==> CountAt(t, name) < needed)
                && status[k].1.isFull != status[k].1.hasSpace
  {
    if formation.None? {
      return [];
    }
    var ps := formation.value.positions;
    status := [];
    var i := 0;
    while i < |ps|
      invariant 0 <= i <= |ps|
      invariant |status| == i
      invariant forall k :: 0 <= k < i ==>
                  && status[k].0 == ps[k].0
                  && status[k].1 == PositionStatus(CountAt(t, ps[k].0), ps[k].1,
                                                   CountAt(t, ps[k].0) >= ps[k].1,
                                                   CountAt(t, ps[k].0) < ps[k].1)
    {
      var current := |GetPlayersByPosition(t, ps[i].0)|;
      var needed := ps[i].1;
      status := status + [(ps[i].0, PositionStatus(current, needed, current >= needed, current < needed))];
      i := i + 1;
    }
  }

  /** No name appears twice. */
  predicate DistinctNames(names: seq<string>)
  {
    forall i, j :: 0 <= i < j < |names| ==> names[i] != names[j]
  }

  /** The player stands at one of `names`. */
  predicate AtAny(p: Player, names: seq<string>)
  {
    p.position.Some? && p.position.value in names
  }

  function AtAnyTest(names: seq<string>): Player -> bool
  {
    (p: Player) => AtAny(p, names)
  }

  /** Sum, over `names`, of the number of players at each name. */
  function SumAt(ps: seq<Player>, names: seq<string>): nat
  {
    if |names| == 0 then 0 else Seqs.Count(ps, AtPositionTest(names[0])) + SumAt(ps, names[1..])
  }

  /** Number of entries of `names` equal to the player's position. */
  function Hits(p: Player, names: seq<string>): nat
  {
    if |names| == 0 then 0 else (if AtPosition(p, names[0]) then 1 else 0) + Hits(p, names[1..])
  }

  lemma {:induction false} SumAtEmpty(names: seq<string>)
    ensures SumAt([], names) == 0
  {
    if |names| > 0 {
      SumAtEmpty(names[1..]);
    }
  }

  lemma {:induction false} SumAtCons(ps: seq<Player>, names: seq<string>)
    requires |ps| > 0
    ensures SumAt(ps, names) == Hits(ps[0], names) + SumAt(ps[1..], names)
  {
    if |names| > 0 {
      SumAtCons(ps, names[1..]);
    }
  }

  lemma {:induction false} HitsDistinct(p: Player, names: seq<string>)
    requires DistinctNames(names)
    ensures Hits(p, names) == if AtAny(p, names) then 1 else 0
  {
    if |names| > 0 {
      var rest := names[1..];
      assert DistinctNames(rest) by {
        forall i, j | 0 <= i < j < |rest| ensures rest[i] != rest[j] {
          assert rest[i] == names[i + 1] && rest[j] == names[j + 1];
        }
      }
      HitsDistinct(p, rest);
      assert names == [names[0]] + rest;
      if AtPosition(p, names[0]) {
        assert names[0] !in rest by {
          forall k | 0 <= k < |rest| ensures rest[k] != names[0] {
            assert rest[k] == names[k + 1];
          }
        }
      }
    }
  }

  /** Over distinct names, summing the per-name counts counts each player
      standing at one of the names exactly once. */
  lemma {:induction false} SumAtIsCountAtAny(ps: seq<Player>, names: seq<string>)
    requires DistinctNames(names)
    ensures SumAt(ps, names) == Seqs.Count(ps, AtAnyTest(names))
  {
    if |ps| == 0 {
      SumAtEmpty(names);
    } else {
      SumAtCons(ps, names);
      HitsDistinct(ps[0], names);
      SumAtIsCountAtAny(ps[1..], names);
    }
  }

  /** A satisfied formation's per-name counts add up to its total. */
  lemma {:induction false} SatisfiedSum(t: Team, ps: Requirements)
    requires forall k :: 0 <= k < |ps| ==> CountAt(t, ps[k].0) == ps[k].1
    ensures SumAt(t.players, KeyNames(ps)) == SumCounts(ps)
  {
    if |ps| > 0 {
      assert KeyNames(ps)[1..] == KeyNames(ps[1..]);
      assert forall k :: 0 <= k < |ps[1..]| ==> ps[1..][k] == ps[k + 1];
      SatisfiedSum(t, ps[1..]);
    }
  }

  /** The key names of a requirement list. */
  function KeyNames(ps: Requirements): (r: seq<string>)
    ensures |r| == |ps| && forall k :: 0 <= k < |r| ==> r[k] == ps[k].0
  {
    seq(|ps|, k requires 0 <= k < |ps| => ps[k].0)
  }

  /** A team that meets a formation has exactly `getTotalPlayers()` players
      standing at the formation's positions. */
  lemma SatisfiedFormationFieldsTotal(t: Team, f: Formation)
    requires Seqs.DistinctKeys(f.positions)
    requires Satisfies(t, f)
    ensures Seqs.Count(t.players, AtAnyTest(GetPositionNames(f))) == TotalPlayers(f)
  {
    var names := KeyNames(f.positions);
    assert names == GetPositionNames(f);
    assert DistinctNames(names);
    SatisfiedSum(t, f.positions);
    SumAtIsCountAtAny(t.players, names);
  }

  /** The plain object `toJSON()` produces. The formation is passed through
      as the same object, not serialized. */
  datatype TeamJson = TeamJson(
    id: string,
    name: string,
    sportId: string,
    teamSize: int,
    players: seq<PlayerJson>,
    activeFormation: Option<Formation>)

  /** `toJSON()`: the six declared fields, players serialized one by one. */
  function ToJson(t: Team): (j: TeamJson)
    ensures j.id == t.id && j.name == t.name && j.sportId == t.sportId && j.teamSize == t.teamSize
    ensures j.activeFormation == t.activeFormation
    ensures |j.players| == |t.players|
    ensures forall i :: 0 <= i < |t.players| ==> j.players[i] == Players.ToJson(t.players[i])
  {
    TeamJson(t.id, t.name, t.sportId, t.teamSize,
             seq(|t.players|, i requires 0 <= i < |t.players| => Players.ToJson(t.players[i])),
             t.activeFormation)
  }

  /** `Team.fromJSON(data)`: `new Team(data)`, each plain player object
      rebuilt by `Player.fromJSON`. */
  function FromJson(j: TeamJson): (t: Team)
    ensures t.description.None?
  {
    NewTeam(j.id, j.name, j.sportId, j.teamSize,
            seq(|j.players|, i requires 0 <= i < |j.players| => Players.FromJson(j.players[i])),
            j.activeFormation)
  }

  /** `Team.fromJSON(team.toJSON())`, which the store runs after a change:
      the same team without its ad-hoc description. */
  function Refresh(t: Team): (r: Team)
    ensures r == t.(description := None)
  {
    RefreshKeepsDeclaredFields(t);
    FromJson(ToJson(t))
  }

  /** Serializing and deserializing a team keeps every declared field and
      every player's seven fields, and drops anything else, such as a
      description. */
  lemma RefreshKeepsDeclaredFields(t: Team)
    ensures FromJson(ToJson(t)) == t.(description := None)
  {
    var r := FromJson(ToJson(t));
    assert |r.players| == |t.players|;
    forall i | 0 <= i < |t.players| ensures r.players[i] == t.players[i] {
      Players.JsonRoundTrip(t.players[i]);
    }
  }

  /** Serializing a deserialized team record gives back the same record. */
  lemma JsonRoundTripRecord(j: TeamJson)
    ensures ToJson(FromJson(j)) == j
  {
    var r := ToJson(FromJson(j));
    forall i | 0 <= i < |j.players| ensures r.players[i] == j.players[i] {
      Players.JsonRoundTripRecord(j.players[i]);
    }
  }
}

=== FILE: wrappers.dfy ===
/** Wrappers used across the roster model: `Option` for the
    JavaScript `null`/`undefined` a lookup may return, and `Result` for an
    operation that may throw instead of returning. */
module Wrappers {

  /** `None` stands for JavaScript's `null` or `undefined`. */
  datatype Option<+T> = None | Some(value: T) {

    /** The wrapped value, or `default` when absent. */
    function GetOr(default: T): T {
      match this
      case Some(v) => v
      case None => default
    }
  }

  /** `Failure` stands for an exception the JavaScript code would throw. */
  datatype Result<+R, +E> = Success(value: R) | Failure(error: E)
}
